=== FILE: README.md ===
# Flight Overhead: nearest-aircraft route and split-flap ticker, in Dafny

Flight Overhead shows which aircraft is flying over an observer. It has two parts, and this project models the core of each.

- **The flight route** (`GET /api/flight?lat=…&lon=…`). It checks the coordinates, reads the ADS-B feed's `ac` list, and keeps only the records that are fit for selection. It picks the record nearest to the observer by a left-to-right reduction, then builds the one flight summary it returns. The summary holds the airline name or "PRIVATE", the altitude, the rounded ground speed and heading, and the vertical rate. Every failure along the way becomes an empty list.
- **The ticker** (`OverheadClient`). It polls the route and fingerprints each answer. The intended behaviour is a reveal whenever a flight appears where none was shown: four rows of fourteen cells scramble for a second and then settle on the flight's text, the last cell's deadline commits the flight, and any other answer shows the new state at once. As written, every poll compares the answer with the state of the first render, so a flight still overhead is revealed again, and the branch without a reveal leaves the settled rows on show; "## Findings" sets out both, and the model holds the code as written beside the corrected handlers. It also renders the compass direction, the callsign rule and the fixed-width rows.

Modules:

| file | module | what it holds |
|---|---|---|
| `option.dfy` | `Options` | `Option` |
| `js_values.dfy` | `JsValues` | parsed JSON values, truthiness, `Math.round`, JavaScript `%` by 8 |
| `text.dfy` | `Text` | `trim`, `toUpperCase`, `padEnd(14).slice(0, 14)`, decimal integers |
| `feed.dfy` | `Feed` | feed records and the selection filter |
| `nearest.dfy` | `Nearest` | the reduction that picks the nearest record |
| `flight_summary.dfy` | `FlightSummary` | the airline directory and the summary builder |
| `route.dfy` | `Route` | the handler's outcome branches |
| `ticker_format.dfy` | `TickerFormat` | the fingerprint, compass, callsign rule and the ticker's rows |
| `ticker.dfy` | `Ticker` | the ticker's state machine, both as the code is written and as it is evidently intended, and its display |

What is abstracted:

- The distance from the observer to a record is a parameter `dist`. The haversine formula is floating-point trigonometry.
- The feed's reply is a parameter `FeedReply`. It covers a failed request and a JSON body whose `ac` is missing, not a list, or a list.
- Timers are events (`Ticker.Event`). A poll's answer, a failed poll, a cell's deadline, a scramble tick and the effect's cleanup each change the state. Any order of these events can be run with `Ticker.Run`.
- A poll's answer and the cleanup each come as two events. `StaleAnswer` and `CleanupAsWrittenRuns` are the code as written: the answer is read against the view the closure captured, and the cleanup cancels deadlines only. `Answer` and `CleanupRuns` are the corrected handlers named under "## Findings". The well-formedness and consistency invariants are proved for runs that mix all of them.
- The random scramble character is a parameter of the tick, limited to the alphabet of line 38.

Behaviour of the code worth knowing, which the model keeps:

- The route reads the callsign from the record's `callsign` field (route line 82). ADS-B Exchange's v2 records carry the callsign in a field named `flight`. Against such a feed every callsign reads as "", and every flight is shown as "PRIVATE".
- The scramble alphabet `ABCDEFGHJKLMNOPQRSTUVWXYZ0123456789` leaves out `I` only; `O` stays in.
- `getCompassDirection` returns `undefined` for a heading from -337 to -23, because JavaScript's `%` keeps the dividend's sign (`TickerFormat.NegativeHeadingHasNoDirection`).

## Model

| member | source | states |
|---|---|---|
| JsValues.Round | app/api/flight/route.js:90-91 | `Math.round` gives the integer within half a unit of its argument, ties going up |
| JsValues.RoundNumber | app/api/flight/route.js:90-95 | a rounded value is a whole number exactly when the input is finite, and then it is within half of it; NaN and the infinities are serialised as `null` |
| JsValues.JsRem8 | app/overhead/OverheadClient.js:111 | `a % 8` differs from `a` by a multiple of 8, lies strictly between -8 and 8, and is negative exactly for a negative dividend that is not a multiple of 8: the remainder of division truncated towards zero |
| Text.TrimStart | app/api/flight/route.js:82 | what is left is a suffix of the input, everything removed is white space, and it does not start with white space |
| Text.TrimEnd | app/api/flight/route.js:82 | what is left is a prefix of the input, everything removed is white space, and it does not end with white space |
| Text.Trim | app/overhead/OverheadClient.js:115 | the trimmed string is no longer than the input and neither starts nor ends with white space |
| Text.TrimIsInfix | app/api/flight/route.js:82 | the trimmed string sits inside the input with only white space on either side |
| Text.TrimOfTrimmed | app/overhead/OverheadClient.js:115 | a string without white space at either end is its own trim |
| Text.TrimIdempotent | app/overhead/OverheadClient.js:115 | trimming twice is trimming once |
| Text.Upper | app/api/flight/route.js:82 | `toUpperCase` keeps the length, leaves no lower-case ASCII letter, keeps every other character and moves each lower-case letter to its capital |
| Text.UpperIdempotent | app/overhead/OverheadClient.js:116 | upper-casing twice is upper-casing once |
| Text.UpperOfUpper | app/overhead/OverheadClient.js:116 | a string with no lower-case letter is unchanged by `toUpperCase` |
| Text.UpperKeepsTrimmed | app/api/flight/route.js:82 | upper-casing a trimmed string leaves it trimmed |
| Text.Fit | app/overhead/OverheadClient.js:120 | `padEnd(14, ' ').slice(0, 14)` gives exactly fourteen characters: the text's own, then spaces |
| Text.Digits | app/overhead/OverheadClient.js:26 | a natural number's decimal text is non-empty, all digits, and has a leading zero only for 0 |
| Text.DigitsRoundTrip | app/overhead/OverheadClient.js:26 | reading back a natural number's decimal text gives the number |
| Text.IntToStringRoundTrip | app/overhead/OverheadClient.js:26 | reading back an integer's text, sign included, gives the integer |
| Text.IntToString | app/overhead/OverheadClient.js:26 | an integer's text is non-empty, starts with '-' exactly for a negative integer, and is otherwise all digits |
| Text.IntToStringInjective | app/overhead/OverheadClient.js:26 | different integers have different texts |
| Feed.Records | app/api/flight/route.js:59-64 | the list's records are available exactly when no element is `null`, on which the filter's callback throws; they are then the elements in order |
| Feed.Usable | app/api/flight/route.js:59-64 | the filter's callback: truthy `lat` and `lon`, a positive finite `alt_baro` and `gs`, and a numeric `seen` under 30, minus infinity included |
| Feed.Filter | app/api/flight/route.js:59-64 | the filtered list is no longer than the input and every record in it passes the callback |
| Feed.FilterIsSubsequence | app/api/flight/route.js:59-64 | the filter keeps records in their original order |
| Feed.FilterCounts | app/api/flight/route.js:59-64 | each usable record is kept as often as it occurs and each other record is dropped, so nothing usable is lost |
| Feed.FilterEmptyIff | app/api/flight/route.js:59-71 | the filtered list is empty exactly when no record is usable |
| Feed.SubsequenceElements | app/api/flight/route.js:59-64 | every record of an order-keeping sublist occurs in the list |
| Nearest.Step | app/api/flight/route.js:73-77 | the callback keeps the record held or takes the current one; the held distance never grows and is at most the current record's; an equally near record does not displace the one held |
| Nearest.ReduceFrom | app/api/flight/route.js:73-78 | the reduction ends holding something once it has seen a record, and what it holds is no farther than any record it passed |
| Nearest.ReduceFindsFirstMinimum | app/api/flight/route.js:73-78 | the reduction continued from any consistent accumulator holds the first record at minimum distance, with that distance |
| Nearest.NearestIndex | app/api/flight/route.js:73-80 | the chosen record is at minimum distance, and strictly nearer than every record before it |
| Nearest.NearestOrderInvariant | app/api/flight/route.js:73-78 | with no two records equally far, reordering the feed does not change the choice |
| FlightSummary.CallsignText | app/api/flight/route.js:82 | `(callsign \|\| "")` can be trimmed unless it is truthy and not a string; a string reads as itself and any other falsy callsign as "" |
| FlightSummary.Prefix | app/api/flight/route.js:83 | `slice(0, 3)` is the first three characters, or the whole of a shorter string |
| FlightSummary.NoAirlineIsPrivate | app/api/flight/route.js:1-8 | no directory entry is named "PRIVATE", so the fallback cannot be confused with an airline |
| FlightSummary.AirlineNamesAreClean | app/api/flight/route.js:1-8 | every directory name has two or more characters, no white space at either end, and no '-' |
| FlightSummary.Airline | app/api/flight/route.js:1-8 | only a string of three capital letters names an airline |
| FlightSummary.AirlineName | app/api/flight/route.js:82-84 | the name is "PRIVATE" exactly when the designator is not in the directory, and otherwise the directory's name for it |
| FlightSummary.ShortCallsignIsPrivate | app/api/flight/route.js:82-84 | a callsign with fewer than three characters once trimmed, the empty one included, is "PRIVATE" |
| FlightSummary.NameOfCleanCallsign | app/api/flight/route.js:82-83 | for a callsign already trimmed and in capitals, the designator is its first three characters |
| FlightSummary.DeltaExample | app/api/flight/route.js:1-8 | "DAL1234" is Delta |
| FlightSummary.RegistrationExample | app/api/flight/route.js:82-84 | "N12345" is "PRIVATE" |
| FlightSummary.DesignatorIgnoresSpaceAndCase | app/api/flight/route.js:82-83 | the designator of a trimmed, upper-cased callsign is that of the callsign |
| FlightSummary.AirlineNameIgnoresSpaceAndCase | app/api/flight/route.js:82-84 | surrounding white space and letter case do not change the airline name |
| FlightSummary.Summarise | app/api/flight/route.js:86-93 | the summary object: each field is the record's value when that is truthy and the fallback otherwise, with the ground speed rounded and the heading `Math.round` of the track coerced to a number: a truthy track of any kind (a boolean, a numeric string, an array or an object included) gives the rounding of its number, an infinite one `null` |
| FlightSummary.Build | app/api/flight/route.js:80-93 | the summary exists unless the callsign cannot be trimmed. It carries the airline name, the positive barometric altitude, and the ground speed rounded to a non-negative integer. `hex` or "" and the vertical rate or 0 are chosen by truthiness. The heading is 0 for a falsy track; for a truthy one, of any kind, it is the rounding of the number the track coerces to, and `null` (`NotFinite`) when that number is infinite |
| FlightSummary.Designator | app/api/flight/route.js:82-83 | the first three characters of the trimmed, upper-cased callsign; `DesignatorIgnoresSpaceAndCase` and `NameOfCleanCallsign` show that space and case do not matter and that a clean callsign keys by its own prefix |
| Route.Resolve | app/api/flight/route.js:59-93 | no usable record gives no flight; otherwise the result is the summary of the first record at minimum distance among the usable ones |
| Route.Get | app/api/flight/route.js:21-106 | the answer is 400 "Missing lat or lon" exactly when a coordinate is 0 or NaN. Otherwise it is 200 with at most one flight. A failed query, a missing `ac`, an empty one, or one with a `null` element gives the empty list. Otherwise the list holds `Resolve`'s flight when it finds one and is empty when it does not |
| Route.MissingCoordinatesSkipFeed | app/api/flight/route.js:26-31 | with a missing coordinate the answer does not depend on the feed |
| Route.NothingUsableMeansNoFlights | app/api/flight/route.js:59-71 | a list without usable records gives the empty list |
| Route.NoUsableRecordResolvesToNothing | app/api/flight/route.js:66-71 | no usable record, no flight |
| Route.OneFlightComesFromResolve | app/api/flight/route.js:73-98 | a one-flight answer means valid coordinates, a list without `null` elements, and the flight `Resolve` chose from it |
| Route.UsableRecordGivesOneFlight | app/api/flight/route.js:59-98 | with a usable record, no `null` element, and no usable record whose callsign is truthy but not a string, the answer is exactly one flight |
| Route.UsableTextResolves | app/api/flight/route.js:59-84 | `Resolve` finds a flight when a record is usable and every usable record's callsign can be trimmed |
| TickerFormat.FlightOf | app/overhead/OverheadClient.js:24 | the poll sees a flight exactly when the answer lists at least one, and then it is the first one listed |
| TickerFormat.Received | app/overhead/OverheadClient.js:24-26 | the flight as the client reads it, a non-finite heading arriving as `null` and reading as 0; `FlightOf` states that the poll takes the first listed flight in this form |
| TickerFormat.Fingerprint | app/overhead/OverheadClient.js:26 | the callsign, rounded altitude and heading joined by '-'; `FingerprintIdentifiesDisplay` shows that it determines all three |
| TickerFormat.FingerprintOf | app/overhead/OverheadClient.js:25-27 | there is a fingerprint exactly when there is a flight, and it is that flight's fingerprint |
| TickerFormat.SplitAtFirstDash | app/overhead/OverheadClient.js:26 | joining with '-' can be undone when the left part has no '-' |
| TickerFormat.FingerprintIdentifiesDisplay | app/overhead/OverheadClient.js:25-28 | for names without '-' and non-negative altitudes, two flights share a fingerprint exactly when they show the same name, rounded altitude and heading |
| TickerFormat.CompassIndex | app/overhead/OverheadClient.js:111 | `Math.round(heading / 45) % 8` with JavaScript's truncating remainder; `CompassIsNearestPoint` and `NegativeHeadingHasNoDirection` state which point or `undefined` it selects |
| TickerFormat.Compass | app/overhead/OverheadClient.js:109-112 | a non-negative heading gets one of the eight points, and the result is `undefined` exactly when the index is negative |
| TickerFormat.CompassIsNearestPoint | app/overhead/OverheadClient.js:109-112 | a heading within 22 degrees of the k-th multiple of 45 gets point k mod 8 |
| TickerFormat.WestExample | app/overhead/OverheadClient.js:109-112 | 270 degrees is W |
| TickerFormat.NorthWraps | app/overhead/OverheadClient.js:109-112 | 338 to 359 degrees wrap round to N |
| TickerFormat.NegativeHeadingHasNoDirection | app/overhead/OverheadClient.js:111 | a heading from -337 to -23 indexes the directions with a negative number and shows `undefined` |
| TickerFormat.FormatCallsign | app/overhead/OverheadClient.js:114-117 | a trimmed name of two or more characters is shown in capitals, and a shorter one as "PRIVATE"; either way the result has two or more characters and no lower-case letter |
| TickerFormat.FormatAirlineName | app/overhead/OverheadClient.js:114-117 | every name the route produces is shown as that name in capitals |
| TickerFormat.Row | app/overhead/OverheadClient.js:119-120 | a rendered row is fourteen characters: the upper-cased text, then spaces |
| TickerFormat.RowTextsReadBack | app/overhead/OverheadClient.js:33-35 | the altitude, speed and heading texts open with "ALT ", "SPD " and "HDG <point> ", close with "FT", "MPH" and "°", and the number between parses back to the rounded altitude, the speed and the heading |
| TickerFormat.FlightTexts | app/overhead/OverheadClient.js:149-152 | the four texts of a flight: the formatted callsign and the altitude, speed and heading texts that `RowTextsReadBack` reads back |
| TickerFormat.Texts | app/overhead/OverheadClient.js:147-161 | four texts: the flight's when there is one, otherwise "", "NO", "FLIGHT", "OVERHEAD"; `EmptyGridShowsStatic` states that a grid without a reveal shows them |
| TickerFormat.RevealRowsOf | app/overhead/OverheadClient.js:31-36 | four rows of exactly fourteen characters; `RevealRowsOfCapitals` shows that the missing `toUpperCase` on the first row makes no difference |
| TickerFormat.RevealRows | app/overhead/OverheadClient.js:31-36 | the reveal's four rows of fourteen characters; `RevealRowsAreRenderedRows` shows they are the rows the ticker renders for the flight |
| TickerFormat.RevealRowsOfCapitals | app/overhead/OverheadClient.js:31-36 | leaving out `toUpperCase` on a first row already in capitals changes nothing |
| TickerFormat.RevealRowsAreRenderedRows | app/overhead/OverheadClient.js:31-36 | the reveal settles on exactly the rows the ticker renders for the flight |
| TickerFormat.HeadingRowExample | app/overhead/OverheadClient.js:35 | a flight heading 270 degrees reads "HDG W 270°" |
| Ticker.SetCell | app/overhead/OverheadClient.js:45-49 | writing a cell changes that cell only; writing past a row's end lengthens it with unset slots |
| Ticker.Reveals | app/overhead/OverheadClient.js:28-30 | the reveal condition against the view a poll reads. As written that view is always the first render's (`StaleViewReanimates`); read against the current state, as in the intended handler `Ticker.Receive`, `RevealOnlyFromEmpty` shows that it holds exactly when a flight arrives while none is shown |
| Ticker.RevealTimers | app/overhead/OverheadClient.js:42-67 | a reveal starts 56 timers that own every cell of the grid, no cell twice; each is armed, aims at its cell's character of the revealed rows, and captures the flight and its fingerprint |
| Ticker.ApplyAnswer | app/overhead/OverheadClient.js:24-74 | the reveal branch blanks the grid and adds the cell timers, and changes nothing else. The other branch sets the flight, its fingerprint and `wasNoFlight` and leaves the grid and the timers alone |
| Ticker.Receive | app/overhead/OverheadClient.js:24-74 | with the current state read, a reveal leaves the bookkeeping to the last deadline; settling sets the flight, fingerprint and `wasNoFlight` and clears the grid |
| Ticker.FetchFailed | app/overhead/OverheadClient.js:75-81 | a failed poll shows no flight, forgets the fingerprint and the grid, and leaves the timers |
| Ticker.FireDeadline | app/overhead/OverheadClient.js:52-65 | a deadline writes its target and removes its timer. Only row 3, column 13 commits the flight, its fingerprint and `wasNoFlight := false` |
| Ticker.Scramble | app/overhead/OverheadClient.js:44-50 | a scramble tick writes its character into its own cell and changes nothing else |
| Ticker.Cleanup | app/overhead/OverheadClient.js:89-92 | the intended cleanup cancels every timer of the session and leaves what is shown |
| Ticker.Run | app/overhead/OverheadClient.js:17-93 | any sequence of enabled events keeps the state well formed, whether answers and cleanups are handled as written or as intended |
| Ticker.NextPreservesConsistency | app/overhead/OverheadClient.js:11-14 | every event, the as-written answer with any captured view and the as-written cleanup included, keeps `wasNoFlight` and the fingerprint in step with the flight on show |
| Ticker.RunPreservesConsistency | app/overhead/OverheadClient.js:11-14 | so does any run of events |
| Ticker.RevealOnlyFromEmpty | app/overhead/OverheadClient.js:28-30 | in the intended handler, which reads the current state (`CurrentView`), a reveal plays exactly when a flight arrives while none is shown; as written every poll reads the first render's view, so every flight reveals (see "## Findings") |
| Ticker.SameFlightDoesNotReveal | app/overhead/OverheadClient.js:28-30 | in the intended handler (`Ticker.Receive`), the flight on show, answered again, adds no timers and stays on show; the code as written re-reveals it (`StaleViewReanimates`) |
| Ticker.StaticCellIsTrim | app/overhead/OverheadClient.js:126 | a static cell shows `char.trim() \|\| ''` |
| Ticker.Shown | app/overhead/OverheadClient.js:119-131 | the screen is four rows of fourteen cells; `EmptyGridShowsStatic` and `ShownOfFullGrid` give what inactive and active rows show |
| Ticker.StaticDisplay | app/overhead/OverheadClient.js:119-126 | four rows of fourteen cells, each cell the trimmed character of the row text; `StaticCellIsTrim` and `EmptyGridShowsStatic` relate it to the inactive branch |
| Ticker.InitialIsConsistent | app/overhead/OverheadClient.js:11-15 | the first render is well formed and consistent (no flight, no fingerprint, `wasNoFlight` true) and shows "NO FLIGHT OVERHEAD" |
| Ticker.EmptyGridShowsStatic | app/overhead/OverheadClient.js:121-126 | with an empty grid every row shows the static text of the flight in state |
| Ticker.SettledShowsAnswer | app/overhead/OverheadClient.js:72-74 | in the intended handler (`Ticker.Receive`), an answer that does not reveal is shown at once: the new flight's rows, or "NO FLIGHT OVERHEAD"; as written the settled rows stay on show (`StaleGridKeepsShowing`) |
| Ticker.FailureShowsNoFlight | app/overhead/OverheadClient.js:75-81 | after a failed poll the ticker shows "NO FLIGHT OVERHEAD" |
| Ticker.RevealStarts | app/overhead/OverheadClient.js:30-67 | a reveal from a state with no timers owns every cell once, with armed timers aiming at the flight's rows |
| Ticker.PendingAfterRemoval | app/overhead/OverheadClient.js:52-58 | removing one cell's timer frees that cell and no other |
| Ticker.DeadlineKeepsSettling | app/overhead/OverheadClient.js:52-65 | a deadline firing mid-reveal keeps every settled cell settled and settles its own |
| Ticker.ScrambleKeepsSettling | app/overhead/OverheadClient.js:44-50 | a scramble tick touches only a cell still pending |
| Ticker.Settled | app/overhead/OverheadClient.js:60-64 | with no timer left, the grid holds the target rows and the flight is committed |
| Ticker.SettlingCompletes | app/overhead/OverheadClient.js:42-65 | whatever order the deadlines and ticks come in, once no timer is left the grid holds the target rows and the flight, its fingerprint and `wasNoFlight` are committed |
| Ticker.ShownOfFullGrid | app/overhead/OverheadClient.js:121-126 | a grid with fourteen cells in each row is shown as it is |
| Ticker.SettledGridShowsFlight | app/overhead/OverheadClient.js:119-131 | a settled grid shows each revealed character; trimmed, each cell matches the flight's static display |
| Ticker.RevealShowsFlight | app/overhead/OverheadClient.js:24-67 | a flight arriving while none is shown, followed by its timers firing until none is left, ends with that flight on show and consistent bookkeeping |
| Ticker.StaleViewReanimates | app/overhead/OverheadClient.js:17-30 | as written, the flight on show answered again by the next poll blanks the grid and replays the reveal |
| Ticker.StaleGridKeepsShowing | app/overhead/OverheadClient.js:72-74 | as written, after a completed reveal an answer with no flight leaves the old rows on screen |
| Ticker.CleanupAsWritten | app/overhead/OverheadClient.js:89-92 | as written, the cleanup disarms every deadline and keeps every scramble interval |
| Ticker.NextKeepsDisarmed | app/overhead/OverheadClient.js:44-65 | one event other than the intended cleanup leaves timers whose deadline is gone where they are |
| Ticker.DisarmedTimersPersist | app/overhead/OverheadClient.js:52-65 | no run of events without the intended cleanup removes a timer whose deadline is gone |
| Ticker.OrphanScramblersAfterCleanup | app/overhead/OverheadClient.js:44-50 | as written, after the cleanup every scramble interval can still tick and write into its cell, whatever answers, deadlines and further as-written cleanups follow |
| Ticker.CleanupStopsEverything | app/overhead/OverheadClient.js:89-92 | after the intended cleanup no timer can fire |

## Left out

- The haversine distance (route lines 10-19) is a parameter. Distances are reals, so a NaN distance is not modelled. With NaN, `distance < closestSoFar.distance` is false, and the reduction would keep a record that is not the nearest.
- Building the URL, `parseFloat` of the query, `toFixed(4)`, the request headers and the API key (route lines 22-24 and 33-46) are left out. The coordinates enter as JavaScript numbers, and the request's outcome enters as `FeedReply`.
- `console.log` and `console.error` are left out. They have no effect on the answer.
- `setInterval` polling every 20 s (client lines 84-87), timer ordering and `Math.random` are left out. Polls and timer callbacks are events in any order, and the random character is a parameter.
- A poll whose answer arrives after a newer one is not modelled. Answers are applied in the order they arrive.
- The corrected `Receive` does not cancel a reveal's timers when a later answer arrives; the code has no such cancellation either.
- The JSX layout, the styles, and `app/page.js`, `app/layout.js` and `app/overhead/page.js` are left out. They are not part of this model.
- `toUpperCase` is modelled on ASCII letters only. Unicode case mapping, such as 'ß' to "SS", is left out.
- `ToNumber` of a string, array or object is not computed from its text or contents. Such a value carries the number it coerces to. `Build` reads that number for `Math.round(top.track || 0)` when `track` is a non-empty string, an array or an object.
- Strings are sequences of characters, one per code point. JavaScript's `length`, `slice`, `padEnd` and `split('')` count UTF-16 code units, so a callsign with a character outside the Basic Multilingual Plane would be cut and padded differently; the airline names and labels the route and the ticker produce are ASCII.
- `IntToString` writes integers in plain decimal. JavaScript switches to exponent notation at 1e21, which no altitude, speed or heading reaches.
- JsValues.Round: Math.round is modelled on reals, not IEEE doubles. For example, 0.49999999999999994 is modelled as rounding to 0.
- Ticker.Run: any sequence of enabled events is allowed, in any order and with any view carried by `StaleAnswer`. Real timers fire in time order and the closure captures one particular view, so the runs admit more behaviour than the code can show; the invariants proved over them hold a fortiori.

## Findings

| source | as written | input that shows it | evidently intended | confidence | as-written member | corrected member |
|---|---|---|---|---|---|---|
| app/overhead/OverheadClient.js:17-30 | `fetchFlight` is created once per run of the effect with dependencies `[lat, lon]`, so every poll reads the initial `wasNoFlight` (true) and `previousFingerprint` (null) | a flight stays overhead for two polls; the second poll blanks the grid and replays the 56-cell reveal | a poll compares with the current state, so the flight on show is not re-revealed | high; not executed | Ticker.ApplyAnswer, Ticker.StaleViewReanimates | Ticker.Receive, Ticker.SameFlightDoesNotReveal |
| app/overhead/OverheadClient.js:72-74 | the branch that does not reveal never clears `scrambleMap`, so rows left at fourteen cells by a reveal stay "active" | after a reveal completes, the next poll finds no flight; the second row still reads "ALT …" instead of "NO" | settling shows the new state's text | high; not executed | Ticker.ApplyAnswer, Ticker.StaleGridKeepsShowing | Ticker.Receive, Ticker.SettledShowsAnswer |
| app/overhead/OverheadClient.js:89-92 | the cleanup clears the 1000 ms deadlines only; each 50 ms scramble interval is known only to its deadline's closure, so once that deadline is cancelled nothing clears it | the coordinates change within a second of a reveal starting; the cancelled cells keep changing every 50 ms for good | the cleanup cancels every timer of the session | high; not executed | Ticker.CleanupAsWritten, Ticker.OrphanScramblersAfterCleanup | Ticker.Cleanup, Ticker.CleanupStopsEverything |

=== FILE: feed.dfy ===
/** The aircraft records of one feed response and the filter that keeps only
    those fit for selection (app/api/flight/route.js, lines 59-64). */
module Feed {

  import opened Options
  import opened JsValues

  /** The fields of a feed record the route reads. */
  datatype Aircraft = Aircraft(
    hex: JVal,
    callsign: JVal,
    lat: JVal,
    lon: JVal,
    altBaro: JVal,
    gs: JVal,
    track: JVal,
    baroRate: JVal,
    seen: JVal)

  /** An element of the feed's `ac` array. Reading a property of a `null`
      element throws; a number, string or boolean element reads like a record
      whose fields are all absent. */
  datatype Entry = NullEntry | Record(ac: Aircraft)

  /** `typeof v === 'number' && isFinite(v) && v > 0` */
  predicate PositiveFinite(v: JVal) {
    v.Num? && v.x > 0.0
  }

  /** `typeof v === 'number' && v < 30`; minus infinity passes. */
  predicate Recent(v: JVal) {
    (v.Num? && v.x < 30.0) || v == Inf(false)
  }

  /** The filter's callback. */
  predicate Usable(ac: Aircraft) {
    Truthy(ac.lat) && Truthy(ac.lon) && PositiveFinite(ac.altBaro) && PositiveFinite(ac.gs) && Recent(ac.seen)
  }

  /** The records of the `ac` array, or `None` when the filter's callback
      would throw on a `null` element. */
  function Records(es: seq<Entry>): (r: Option<seq<Aircraft>>)
    ensures r.Some? <==> forall i :: 0 <= i < |es| ==> es[i].Record?
    ensures r.Some? ==> |r.value| == |es| && forall i :: 0 <= i < |es| ==> r.value[i] == es[i].ac
  {
    if es == [] then Some([])
    else if es[0].NullEntry? then None
    else match Records(es[1..])
      case None => None
      case Some(rest) => Some([es[0].ac] + rest)
  }

  /** `ac.filter(...)` with the callback above. */
  function Filter(acs: seq<Aircraft>): (r: seq<Aircraft>)
    ensures |r| <= |acs|
    ensures forall k :: 0 <= k < |r| ==> Usable(r[k])
  {
    if acs == [] then []
    else (if Usable(acs[0]) then [acs[0]] else []) + Filter(acs[1..])
  }

  /** `a` is `b` with some elements deleted, order kept. */
  predicate IsSubsequence<T(==)>(a: seq<T>, b: seq<T>)
    decreases |b|
  {
    a == [] || (b != [] && ((a[0] == b[0] && IsSubsequence(a[1..], b[1..])) || IsSubsequence(a, b[1..])))
  }

  /** The survivors keep their relative order and are not altered. */
  lemma {:induction false} FilterIsSubsequence(acs: seq<Aircraft>)
    ensures IsSubsequence(Filter(acs), acs)
  {
    if acs != [] {
      FilterIsSubsequence(acs[1..]);
      if Usable(acs[0]) {
        assert Filter(acs) == [acs[0]] + Filter(acs[1..]);
        assert Filter(acs)[1..] == Filter(acs[1..]);
      } else {
        assert Filter(acs) == Filter(acs[1..]);
      }
    }
  }

  /** No usable record is dropped: every usable record survives as often as
      it occurs, and nothing else survives. */
  lemma {:induction false} FilterCounts(acs: seq<Aircraft>, x: Aircraft)
    ensures multiset(Filter(acs))[x] == if Usable(x) then multiset(acs)[x] else 0
  {
    if acs != [] {
      FilterCounts(acs[1..], x);
      assert acs == [acs[0]] + acs[1..];
    }
  }

  /** The filter's result is empty exactly when no record is usable. */
  lemma {:induction false} FilterEmptyIff(acs: seq<Aircraft>)
    ensures Filter(acs) == [] <==> forall i :: 0 <= i < |acs| ==> !Usable(acs[i])
  {
    if acs != [] {
      FilterEmptyIff(acs[1..]);
      assert forall i :: 1 <= i < |acs| ==> acs[i] == acs[1..][i - 1];
    }
  }

  lemma {:induction false} SubsequenceElements<T>(a: seq<T>, b: seq<T>)
    requires IsSubsequence(a, b)
    ensures forall k :: 0 <= k < |a| ==> exists i :: 0 <= i < |b| && b[i] == a[k]
    decreases |b|
  {
    if a != [] {
      if a[0] == b[0] && IsSubsequence(a[1..], b[1..]) {
        SubsequenceElements(a[1..], b[1..]);
        forall k | 0 <= k < |a|
          ensures exists i :: 0 <= i < |b| && b[i] == a[k]
        {
          if k == 0 {
            assert b[0] == a[0];
          } else {
            var i :| 0 <= i < |b[1..]| && b[1..][i] == a[1..][k - 1];
            assert b[i + 1] == a[k];
          }
        }
      } else {
        SubsequenceElements(a, b[1..]);
        forall k | 0 <= k < |a|
          ensures exists i :: 0 <= i < |b| && b[i] == a[k]
        {
          var i :| 0 <= i < |b[1..]| && b[1..][i] == a[k];
          assert b[i + 1] == a[k];
        }
      }
    }
  }
}

=== FILE: flight_summary.dfy ===
/** The airline directory and the construction of the one flight summary the
    route returns (app/api/flight/route.js, lines 1-8 and 80-93). */
module FlightSummary {

  import opened Options
  import opened JsValues
  import opened Text
  import opened Feed

  /** `airlineNames`: the ICAO designators the ticker knows, each with the
      name it shows. A lookup of any other string finds nothing; every key is
      three capital letters, which is why the route upper-cases first. */
  function Airline(designator: string): (r: Option<string>)
    ensures r.Some? ==> |designator| == 3 && forall k :: 0 <= k < 3 ==> 'A' <= designator[k] <= 'Z'
  {
    if |designator| != 3 then None else
    match (designator[0], designator[1], designator[2])
    case ('A', 'A', 'L') => Some("American")
    case ('D', 'A', 'L') => Some("Delta")
    case ('U', 'A', 'L') => Some("United")
    case ('S', 'W', 'A') => Some("Southwest")
    case ('F', 'F', 'T') => Some("Frontier")
    case ('N', 'K', 'S') => Some("Spirit")
    case ('J', 'B', 'U') => Some("JetBlue")
    case ('A', 'S', 'A') => Some("Alaska")
    case ('S', 'K', 'W') => Some("SkyWest")
    case ('F', 'D', 'X') => Some("FedEx")
    case ('U', 'P', 'S') => Some("UPS")
    case ('K', 'A', 'L') => Some("Korean Air")
    case ('B', 'A', 'W') => Some("British")
    case ('A', 'C', 'A') => Some("Air Canada")
    case ('A', 'F', 'R') => Some("Air France")
    case ('D', 'L', 'H') => Some("Lufthansa")
    case ('A', 'N', 'A') => Some("All Nippon")
    case ('J', 'A', 'L') => Some("Japan Air")
    case ('Q', 'F', 'A') => Some("Qantas")
    case ('U', 'A', 'E') => Some("Emirates")
    case ('T', 'H', 'Y') => Some("Turkish")
    case ('E', 'V', 'A') => Some("EVA Air")
    case ('C', 'S', 'C') => Some("China South")
    case ('C', 'C', 'A') => Some("Air China")
    case ('G', 'I', 'A') => Some("Garuda")
    case _ => None
  }

  const Private := "PRIVATE"

  /** The summary returned to the ticker. */
  datatype Flight = Flight(
    icao24: JVal,
    callsign: string,          // the airline's name or "PRIVATE", not the raw callsign
    altitude: real,
    groundspeed: int,
    heading: Rounded,
    verticalRate: JVal)

  /** `(top.callsign || "")` as `.trim()` receives it; `None` when the value is
      truthy but not a string, where `.trim` is not a function and the call
      throws. */
  function CallsignText(v: JVal): (r: Option<string>)
    ensures r == None <==> Truthy(v) && !v.Str?
    ensures !Truthy(v) ==> r == Some("")
    ensures v.Str? ==> r == Some(v.s)
  {
    if !Truthy(v) then Some("") else if v.Str? then Some(v.s) else None
  }

  /** `s.slice(0, 3)` */
  function Prefix(s: string): (r: string)
    ensures |r| == if |s| < 3 then |s| else 3
    ensures r == s[..|r|]
  {
    if |s| < 3 then s else s[..3]
  }

  /** No airline in the directory is called "PRIVATE". */
  lemma NoAirlineIsPrivate(designator: string)
    ensures Airline(designator) != Some(Private)
  {
  }

  /** Every name in the directory has more than one character, neither
      starts nor ends with white space, and has no '-'. */
  lemma AirlineNamesAreClean(designator: string)
    requires Airline(designator).Some?
    ensures var n := Airline(designator).value;
      |n| > 1 && !IsJsSpace(n[0]) && !IsJsSpace(n[|n| - 1]) && '-' !in n
  {
    NameIsLong(designator);
    if designator[0] < 'F' {
      NameEndsAreLettersLow(designator);
      NameHasNoDashLow(designator);
    } else {
      NameEndsAreLettersHigh(designator);
      NameHasNoDashHigh(designator);
    }
  }

  // The directory's names, one property at a time; designators before 'F'
  // and from 'F' on are taken separately to keep each proof small.
  predicate IsLetter(c: char) {
    'A' <= c <= 'Z' || 'a' <= c <= 'z'
  }

  lemma NameIsLong(designator: string)
    requires Airline(designator).Some?
    ensures |Airline(designator).value| > 1
  {
  }

  lemma NameEndsAreLettersLow(designator: string)
    requires Airline(designator).Some? && designator[0] < 'F'
    ensures var n := Airline(designator).value; IsLetter(n[0]) && IsLetter(n[|n| - 1])
  {
  }

  lemma NameEndsAreLettersHigh(designator: string)
    requires Airline(designator).Some? && designator[0] >= 'F'
    ensures var n := Airline(designator).value; IsLetter(n[0]) && IsLetter(n[|n| - 1])
  {
  }

  lemma NameHasNoDashLow(designator: string)
    requires Airline(designator).Some? && designator[0] < 'F'
    ensures '-' !in Airline(designator).value
  {
  }

  lemma NameHasNoDashHigh(designator: string)
    requires Airline(designator).Some? && designator[0] >= 'F'
    ensures '-' !in Airline(designator).value
  {
  }

  /** The designator the route looks up: the first three characters of the
      trimmed, upper-cased callsign. */
  function Designator(callsign: string): string {
    Prefix(Upper(Trim(callsign)))
  }

  /** Lines 82-84: the name of the airline whose designator opens the
      callsign, and "PRIVATE" exactly when the designator is unknown. */
  function AirlineName(callsign: string): (name: string)
    ensures name == Private <==> Airline(Designator(callsign)).None?
    ensures name != Private ==> Airline(Designator(callsign)) == Some(name)
  {
    NoAirlineIsPrivate(Designator(callsign));
    match Airline(Designator(callsign))
    case Some(airline) => airline
    case None => Private
  }

  /** A callsign shorter than three characters once trimmed, the empty one
      included, cannot name an airline. */
  lemma ShortCallsignIsPrivate(callsign: string)
    requires |Trim(callsign)| < 3
    ensures AirlineName(callsign) == Private
  {
  }

  /** For a callsign already trimmed and in upper case, the name depends on
      its first three characters alone. */
  lemma NameOfCleanCallsign(callsign: string)
    requires callsign == [] || (!IsJsSpace(callsign[0]) && !IsJsSpace(callsign[|callsign| - 1]))
    requires forall k :: 0 <= k < |callsign| ==> !IsLowerAscii(callsign[k])
    ensures Designator(callsign) == Prefix(callsign)
  {
    TrimOfTrimmed(callsign);
    assert Trim(callsign) == callsign;
    UpperOfUpper(callsign);
    assert Upper(callsign) == callsign;
  }

  lemma DeltaExample()
    ensures AirlineName("DAL1234") == "Delta"
  {
    NameOfCleanCallsign("DAL1234");
  }

  /** Surrounding white space and letter case do not matter: the name is
      that of the normalised callsign. */
  lemma AirlineNameIgnoresSpaceAndCase(callsign: string)
    ensures AirlineName(callsign) == AirlineName(Upper(Trim(callsign)))
  {
    DesignatorIgnoresSpaceAndCase(callsign);
  }

  lemma DesignatorIgnoresSpaceAndCase(callsign: string)
    ensures Designator(Upper(Trim(callsign))) == Designator(callsign)
  {
    var t := Trim(callsign);
    var u := Upper(t);
    UpperKeepsTrimmed(t);
    TrimOfTrimmed(u);
    assert Trim(u) == u;
    UpperIdempotent(t);
  }

  /** A registration rather than an airline callsign. */
  lemma RegistrationExample()
    ensures AirlineName("N12345") == Private
  {
    NameOfCleanCallsign("N12345");
  }

  const EmptyString := Str("", Finite(0.0))

  /** Lines 86-93 for a record that passed the filter: every field is filled
      in, falling back to "" or 0 where the feed gave nothing. `None` when the
      callsign cannot be trimmed and the handler throws. */
  function Build(ac: Aircraft): (r: Option<Flight>)
    requires Usable(ac)
    ensures r.Some? <==> CallsignText(ac.callsign).Some?
    ensures r.Some? ==> r.value.callsign == AirlineName(CallsignText(ac.callsign).value)
    ensures r.Some? ==> r.value.altitude == ac.altBaro.x > 0.0
    ensures r.Some? ==>
              r.value.groundspeed >= 0 && r.value.groundspeed as real - 0.5 <= ac.gs.x < r.value.groundspeed as real + 0.5
    ensures r.Some? ==> (r.value.icao24 == ac.hex && Truthy(ac.hex)) || (r.value.icao24 == EmptyString && !Truthy(ac.hex))
    ensures r.Some? ==> (r.value.verticalRate == ac.baroRate && Truthy(ac.baroRate)) || (r.value.verticalRate == Num(0.0) && !Truthy(ac.baroRate))
    ensures r.Some? && !Truthy(ac.track) ==> r.value.heading == Whole(0)
    ensures r.Some? && ac.track.Num? ==> r.value.heading == Whole(Round(ac.track.x))
    ensures r.Some? && ac.track.Inf? ==> r.value.heading == NotFinite
    ensures r.Some? && Truthy(ac.track) ==> r.value.heading == RoundNumber(ToNumber(ac.track))
  {
    var text := CallsignText(ac.callsign);
    if text.None? then None else Some(Summarise(ac, AirlineName(text.value)))
  }

  /** The summary object of lines 86-93, given the airline name. */
  function Summarise(ac: Aircraft, name: string): (f: Flight)
    requires Usable(ac)
    ensures f.callsign == name
    ensures f.altitude == ac.altBaro.x > 0.0
    ensures f.groundspeed >= 0 && f.groundspeed as real - 0.5 <= ac.gs.x < f.groundspeed as real + 0.5
    ensures (f.icao24 == ac.hex && Truthy(ac.hex)) || (f.icao24 == EmptyString && !Truthy(ac.hex))
    ensures (f.verticalRate == ac.baroRate && Truthy(ac.baroRate)) || (f.verticalRate == Num(0.0) && !Truthy(ac.baroRate))
    ensures !Truthy(ac.track) ==> f.heading == Whole(0)
    ensures ac.track.Num? ==> f.heading == Whole(Round(ac.track.x))
    ensures ac.track.Inf? ==> f.heading == NotFinite
    ensures Truthy(ac.track) ==> f.heading == RoundNumber(ToNumber(ac.track))
  {
    Flight(
      icao24 := Or(ac.hex, EmptyString),
      callsign := name,
      altitude := Or(ac.altBaro, Num(0.0)).x,
      groundspeed := Round(Or(ac.gs, Num(0.0)).x),
      heading := RoundNumber(ToNumber(Or(ac.track, Num(0.0)))),
      verticalRate := Or(ac.baroRate, Num(0.0)))
  }
}

=== FILE: js_values.dfy ===
/** Values as the flight route sees them once the feed's JSON body has been
    parsed, together with the few JavaScript coercions the route applies to
    them: truthiness, `||`, `Number(...)` and `Math.round`. */
module JsValues {

  /** A JavaScript number, including the non-finite ones. */
  datatype Number = NaN | Finite(x: real) | Infinite(positive: bool)

  /** One property of a parsed JSON object. JSON has no NaN, but an
      out-of-range literal such as `1e400` parses to an infinity. How
      `Number(...)` reads a string, array or object is not modelled
      character by character: such a value carries the number it coerces to. */
  datatype JVal =
    | Absent                              // the property is missing: `undefined`
    | Null
    | Bool(b: bool)
    | Num(x: real)                        // a finite number
    | Inf(positive: bool)
    | Str(s: string, asNumber: Number)
    | Compound(asNumber: Number)          // an array or an object

  predicate NumberTruthy(n: Number) {
    match n
    case NaN => false
    case Finite(x) => x != 0.0
    case Infinite(_) => true
  }

  predicate Truthy(v: JVal) {
    match v
    case Absent => false
    case Null => false
    case Bool(b) => b
    case Num(x) => x != 0.0
    case Inf(_) => true
    case Str(s, _) => |s| > 0
    case Compound(_) => true
  }

  /** The expression `a || b`. */
  function Or(a: JVal, b: JVal): JVal {
    if Truthy(a) then a else b
  }

  /** The abstract operation ToNumber, as `Math.round` applies it. */
  function ToNumber(v: JVal): Number {
    match v
    case Absent => NaN
    case Null => Finite(0.0)
    case Bool(b) => Finite(if b then 1.0 else 0.0)
    case Num(x) => Finite(x)
    case Inf(p) => Infinite(p)
    case Str(_, n) => n
    case Compound(n) => n
  }

  /** `Math.round` on a finite number: the integer nearest to `x`, and of two
      equally near integers the one towards +infinity. */
  function Round(x: real): (r: int)
    ensures r as real - 0.5 <= x < r as real + 0.5
  {
    (x + 0.5).Floor
  }

  /** The result of `Math.round` once it has been through `JSON.stringify`,
      which writes NaN and both infinities as `null`. */
  datatype Rounded = Whole(n: int) | NotFinite

  function RoundNumber(n: Number): (r: Rounded)
    ensures r.Whole? <==> n.Finite?
    ensures n.Finite? ==> r.n as real - 0.5 <= n.x < r.n as real + 0.5
  {
    match n
    case Finite(x) => Whole(Round(x))
    case _ => NotFinite
  }

  /** The expression `a % 8`. JavaScript's `%` truncates towards zero, so its
      remainder takes the sign of the dividend; Dafny's `%` is Euclidean. */
  function JsRem8(a: int): (r: int)
    ensures -8 < r < 8
    ensures r >= 0 <==> a >= 0 || a % 8 == 0
    ensures r >= 0 ==> r == a % 8
    ensures (a - r) % 8 == 0
  {
    if a >= 0 then a % 8 else -((-a) % 8)
  }
}

=== FILE: nearest.dfy ===
/** The left-to-right reduction that picks the record nearest the observer
    (app/api/flight/route.js, lines 73-80). The distance is a parameter: the
    haversine formula it stands for is floating-point trigonometry. */
module Nearest {

  import opened Options

  /** The reduction's accumulator `{ac, distance}`; the record is named by its
      position in the filtered list. */
  datatype Closest = Closest(index: nat, distance: real)

  /** The reduction's callback applied to the record at position `i`: it takes
      the record when nothing is held yet or when it is strictly nearer. */
  function Step<T>(xs: seq<T>, dist: T -> real, best: Option<Closest>, i: nat): (r: Option<Closest>)
    requires i < |xs|
    ensures r.Some? && r.value.distance <= dist(xs[i])
    ensures r == best || r == Some(Closest(i, dist(xs[i])))
    ensures best.Some? ==> r.value.distance <= best.value.distance
    ensures best.Some? && dist(xs[i]) == best.value.distance ==> r == best
  {
    var d := dist(xs[i]);
    if best.None? || d < best.value.distance then Some(Closest(i, d)) else best
  }

  /** `xs.reduce(callback, null)`, continued from position `i` holding `best`. */
  function ReduceFrom<T>(xs: seq<T>, dist: T -> real, i: nat, best: Option<Closest>): (r: Option<Closest>)
    requires i <= |xs|
    ensures best.Some? || i < |xs| ==> r.Some?
    ensures r == best || (r.Some? && i <= r.value.index < |xs| && r.value.distance == dist(xs[r.value.index]))
    ensures best.Some? ==> r.value.distance <= best.value.distance
    ensures r.Some? ==> forall j :: i <= j < |xs| ==> r.value.distance <= dist(xs[j])
    decreases |xs| - i
  {
    if i == |xs| then best else ReduceFrom(xs, dist, i + 1, Step(xs, dist, best, i))
  }

  /** Position `k` holds a minimum distance, and no earlier position does. */
  predicate IsFirstMinimum<T>(xs: seq<T>, dist: T -> real, k: nat) {
    k < |xs|
    && (forall j :: 0 <= j < |xs| ==> dist(xs[k]) <= dist(xs[j]))
    && (forall j :: 0 <= j < k ==> dist(xs[k]) < dist(xs[j]))
  }

  /** What the accumulator holds after the first `i` records. */
  predicate HoldsFirstMinimumOfPrefix<T>(xs: seq<T>, dist: T -> real, i: nat, best: Option<Closest>) {
    i <= |xs|
    && (best.None? <==> i == 0)
    && (best.Some? ==>
          best.value.index < i
          && best.value.distance == dist(xs[best.value.index])
          && IsFirstMinimum(xs[..i], dist, best.value.index))
  }

  lemma {:induction false} ReduceFindsFirstMinimum<T>(xs: seq<T>, dist: T -> real, i: nat, best: Option<Closest>)
    requires HoldsFirstMinimumOfPrefix(xs, dist, i, best)
    requires |xs| > 0
    ensures var r := ReduceFrom(xs, dist, i, best);
      r.Some? && IsFirstMinimum(xs, dist, r.value.index) && r.value.distance == dist(xs[r.value.index])
    decreases |xs| - i
  {
    if i == |xs| {
      assert xs[..i] == xs;
    } else {
      var next := Step(xs, dist, best, i);
      assert xs[..i + 1][..i] == xs[..i];
      ReduceFindsFirstMinimum(xs, dist, i + 1, next);
    }
  }

  /** The position of the record the reduction settles on: a nearest record,
      and of several equally near ones the first. */
  function NearestIndex<T>(xs: seq<T>, dist: T -> real): (k: nat)
    requires |xs| > 0
    ensures IsFirstMinimum(xs, dist, k)
  {
    ReduceFindsFirstMinimum(xs, dist, 0, None);
    ReduceFrom(xs, dist, 0, None).value.index
  }

  /** When no two records are equally far, the choice does not depend on the
      order in which the feed lists them. */
  lemma NearestOrderInvariant<T>(xs: seq<T>, ys: seq<T>, dist: T -> real)
    requires |xs| > 0 && multiset(xs) == multiset(ys)
    requires forall i, j :: 0 <= i < j < |xs| ==> dist(xs[i]) != dist(xs[j])
    ensures |ys| > 0 && ys[NearestIndex(ys, dist)] == xs[NearestIndex(xs, dist)]
  {
    assert xs[0] in multiset(ys);
    var kx := NearestIndex(xs, dist);
    var ky := NearestIndex(ys, dist);
    var a, b := xs[kx], ys[ky];
    assert b in multiset(xs);
    var i :| 0 <= i < |xs| && xs[i] == b;
    assert a in multiset(ys);
    var j :| 0 <= j < |ys| && ys[j] == a;
    assert dist(a) <= dist(b) <= dist(a);
    assert i == kx;
  }
}

=== FILE: option.dfy ===
/** An optional value: a JavaScript `null` on the one hand, a present value on
    the other. */
module Options {

  datatype Option<+T> = None | Some(value: T)
}

=== FILE: route.dfy ===
/** The outcome branches of the `GET` handler (app/api/flight/route.js,
    lines 21-106): coordinate check, feed reply, filter, nearest record and
    summary, with every thrown failure turned into an empty list. */
module Route {

  import opened Options
  import opened JsValues
  import opened Feed
  import opened Nearest
  import opened FlightSummary

  datatype Body = ErrorBody(error: string) | FlightsBody(flights: seq<Flight>)

  datatype Response = Response(status: int, body: Body)

  /** What the feed query yields once `fetch` and `res.json()` have run. */
  datatype FeedReply =
    | FeedFailed                          // fetch rejected, status not ok, or body not JSON
    | FeedJson(ac: Option<seq<Entry>>)    // `json.ac`; `None` when it is missing or not an array

  const MissingCoordinates := Response(400, ErrorBody("Missing lat or lon"))

  const NoFlights := Response(200, FlightsBody([]))

  /** Lines 59-93 on the records of a non-empty `ac` list: the summary of
      the first nearest usable record, or `None` when no record is usable or
      when building the summary throws. */
  function Resolve(acs: seq<Aircraft>, dist: Aircraft -> real): (r: Option<Flight>)
    ensures Filter(acs) == [] ==> r == None
    ensures Filter(acs) != [] ==> exists k: nat :: IsFirstMinimum(Filter(acs), dist, k) && r == Build(Filter(acs)[k])
  {
    var usable := Filter(acs);
    if |usable| == 0 then None
    else
      var k := NearestIndex(usable, dist);
      assert IsFirstMinimum(usable, dist, k);
      Build(usable[k])
  }

  /** The handler for observer coordinates `lat` and `lon` (the results of
      `parseFloat`), the feed's reply, and the distance from the observer to
      each record. A 400 answer exactly when a coordinate is 0 or NaN;
      otherwise a 200 answer with at most one flight. */
  function Get(lat: Number, lon: Number, feed: FeedReply, dist: Aircraft -> real): (r: Response)
    ensures r.status == 400 <==> !NumberTruthy(lat) || !NumberTruthy(lon)
    ensures r.status == 400 ==> r == MissingCoordinates
    ensures r.status != 400 ==> r.status == 200 && r.body.FlightsBody? && |r.body.flights| <= 1
    ensures r.status != 400 && (feed.FeedFailed? || feed.ac.None? || feed.ac.value == []) ==> r == NoFlights
    ensures r.status != 400 && feed.FeedJson? && feed.ac.Some? && Records(feed.ac.value).None? ==> r == NoFlights
    ensures r.status != 400 && feed.FeedJson? && feed.ac.Some? && Records(feed.ac.value).Some? ==>
              (Resolve(Records(feed.ac.value).value, dist).None? ==> r == NoFlights)
              && (Resolve(Records(feed.ac.value).value, dist).Some? ==>
                    r == Response(200, FlightsBody([Resolve(Records(feed.ac.value).value, dist).value])))
  {
    if !NumberTruthy(lat) || !NumberTruthy(lon) then MissingCoordinates
    else match feed
      case FeedFailed => NoFlights
      case FeedJson(None) => NoFlights
      case FeedJson(Some(entries)) =>
        if |entries| == 0 then NoFlights
        else match Records(entries)
          case None => NoFlights
          case Some(acs) =>
            match Resolve(acs, dist)
            case None => NoFlights
            case Some(flight) => Response(200, FlightsBody([flight]))
  }

  /** With a missing coordinate the handler answers before the feed is
      queried: the answer does not depend on the feed's reply. */
  lemma MissingCoordinatesSkipFeed(lat: Number, lon: Number, feed1: FeedReply, feed2: FeedReply, dist: Aircraft -> real)
    requires !NumberTruthy(lat) || !NumberTruthy(lon)
    ensures Get(lat, lon, feed1, dist) == Get(lat, lon, feed2, dist) == MissingCoordinates
  {
  }

  /** No usable record in the list gives the empty list, not an error. */
  lemma NothingUsableMeansNoFlights(lat: Number, lon: Number, entries: seq<Entry>, dist: Aircraft -> real)
    requires NumberTruthy(lat) && NumberTruthy(lon)
    requires forall i :: 0 <= i < |entries| && entries[i].Record? ==> !Usable(entries[i].ac)
    ensures Get(lat, lon, FeedJson(Some(entries)), dist) == NoFlights
  {
    var acs := Records(entries);
    if |entries| > 0 && acs.Some? {
      assert forall i :: 0 <= i < |acs.value| ==> !Usable(acs.value[i]);
      NoUsableRecordResolvesToNothing(acs.value, dist);
    }
  }

  lemma NoUsableRecordResolvesToNothing(acs: seq<Aircraft>, dist: Aircraft -> real)
    requires forall i :: 0 <= i < |acs| ==> !Usable(acs[i])
    ensures Resolve(acs, dist) == None
  {
    FilterEmptyIff(acs);
  }

  /** A successful answer carries the flight `Resolve` produced from the
      records of the feed's list; so, by `Resolve`'s contract, the summary of
      the first of the nearest usable records. */
  lemma OneFlightComesFromResolve(lat: Number, lon: Number, feed: FeedReply, dist: Aircraft -> real, flight: Flight)
    requires Get(lat, lon, feed, dist) == Response(200, FlightsBody([flight]))
    ensures NumberTruthy(lat) && NumberTruthy(lon)
    ensures feed.FeedJson? && feed.ac.Some? && Records(feed.ac.value).Some?
    ensures Resolve(Records(feed.ac.value).value, dist) == Some(flight)
  {
  }

  /** When some record is usable and no usable record has a callsign that
      is truthy but not a string, the answer is exactly one flight. */
  lemma UsableRecordGivesOneFlight(lat: Number, lon: Number, entries: seq<Entry>, dist: Aircraft -> real)
    requires NumberTruthy(lat) && NumberTruthy(lon)
    requires forall i :: 0 <= i < |entries| ==> entries[i].Record?
    requires forall i :: 0 <= i < |entries| && Usable(entries[i].ac) ==> entries[i].ac.callsign.Str? || !Truthy(entries[i].ac.callsign)
    requires exists i :: 0 <= i < |entries| && Usable(entries[i].ac)
    ensures var r := Get(lat, lon, FeedJson(Some(entries)), dist);
      r.status == 200 && r.body.FlightsBody? && |r.body.flights| == 1
  {
    var acs := Records(entries).value;
    var i :| 0 <= i < |entries| && Usable(entries[i].ac);
    assert acs[i] == entries[i].ac;
    UsableTextResolves(acs, dist);
  }

  /** `Resolve` finds a flight when some record is usable and every usable
      record's callsign can be read as text. */
  lemma UsableTextResolves(acs: seq<Aircraft>, dist: Aircraft -> real)
    requires exists i :: 0 <= i < |acs| && Usable(acs[i])
    requires forall i :: 0 <= i < |acs| && Usable(acs[i]) ==> acs[i].callsign.Str? || !Truthy(acs[i].callsign)
    ensures Resolve(acs, dist).Some?
  {
    FilterEmptyIff(acs);
    var usable := Filter(acs);
    var k := NearestIndex(usable, dist);
    FilterIsSubsequence(acs);
    SubsequenceElements(usable, acs);
    var i :| 0 <= i < |acs| && acs[i] == usable[k];
    assert CallsignText(usable[k].callsign).Some?;
  }
}

=== FILE: text.dfy ===
/** The string operations the route and the ticker use: `trim`,
    `toUpperCase`, `padEnd(14, ' ').slice(0, 14)` and the decimal rendering of
    an integer inside a template literal. */
module Text {

  import opened Options

  /** The characters `String.prototype.trim` removes: ECMAScript WhiteSpace
      and LineTerminator code points. */
  predicate IsJsSpace(c: char) {
    c == '\t' || c == '\n' || c == '\U{B}' || c == '\U{C}' || c == '\r' || c == ' '
    || c == '\U{A0}' || c == '\U{1680}' || ('\U{2000}' <= c <= '\U{200A}')
    || c == '\U{2028}' || c == '\U{2029}' || c == '\U{202F}' || c == '\U{205F}'
    || c == '\U{3000}' || c == '\U{FEFF}'
  }

  predicate AllSpace(s: string) {
    forall k :: 0 <= k < |s| ==> IsJsSpace(s[k])
  }

  /** Drops leading white space; what is left is a suffix of `s`. */
  function TrimStart(s: string): (r: string)
    ensures |r| <= |s| && r == s[|s| - |r|..]
    ensures AllSpace(s[..|s| - |r|])
    ensures r == [] || !IsJsSpace(r[0])
  {
    if |s| > 0 && IsJsSpace(s[0]) then
      var r := TrimStart(s[1..]);
      assert s[1..][..|s| - 1 - |r|] == s[1..|s| - |r|];
      AllSpaceAfterSpace(s, |s| - |r|);
      r
    else
      s
  }

  lemma AllSpaceAfterSpace(s: string, n: nat)
    requires 0 < n <= |s| && IsJsSpace(s[0]) && AllSpace(s[1..n])
    ensures AllSpace(s[..n])
  {
    assert forall k :: 1 <= k < n ==> s[..n][k] == s[1..n][k - 1];
  }

  /** Drops trailing white space; what is left is a prefix of `s`. */
  function TrimEnd(s: string): (r: string)
    ensures |r| <= |s| && r == s[..|r|]
    ensures AllSpace(s[|r|..])
    ensures r == [] || !IsJsSpace(r[|r| - 1])
  {
    if |s| > 0 && IsJsSpace(s[|s| - 1]) then
      var r := TrimEnd(s[..|s| - 1]);
      assert s[|r|..] == s[..|s| - 1][|r|..] + [s[|s| - 1]];
      r
    else
      s
  }

  /** `s.trim()`: the infix of `s` left once white space is removed from both
      ends; it neither starts nor ends with white space. */
  function Trim(s: string): (r: string)
    ensures |r| <= |s|
    ensures r == [] || (!IsJsSpace(r[0]) && !IsJsSpace(r[|r| - 1]))
  {
    TrimEnd(TrimStart(s))
  }

  /** `r` sits at offset `i` of `s` with only white space around it. */
  predicate SpaceAround(s: string, r: string, i: nat) {
    i + |r| <= |s| && s[i..i + |r|] == r && AllSpace(s[..i]) && AllSpace(s[i + |r|..])
  }

  lemma TrimIsInfix(s: string)
    ensures exists i :: SpaceAround(s, Trim(s), i)
  {
    var t := TrimStart(s);
    var r := TrimEnd(t);
    var i := |s| - |t|;
    SlicesOfSuffix(s, i, |r|);
    assert r == Trim(s);
    assert SpaceAround(s, r, i);
  }

  /** Cutting a suffix of `s` cuts `s` itself. */
  lemma SlicesOfSuffix(s: string, i: nat, n: nat)
    requires i + n <= |s|
    ensures s[i..][..n] == s[i..i + n] && s[i..][n..] == s[i + n..]
  {
  }

  /** A string without white space at either end is its own trim. */
  lemma TrimOfTrimmed(s: string)
    requires s == [] || (!IsJsSpace(s[0]) && !IsJsSpace(s[|s| - 1]))
    ensures Trim(s) == s
  {
  }

  lemma {:induction false} TrimIdempotent(s: string)
    ensures Trim(Trim(s)) == Trim(s)
  {
    TrimOfTrimmed(Trim(s));
  }

  predicate IsLowerAscii(c: char) {
    'a' <= c <= 'z'
  }

  /** `toUpperCase` on one character, for the ASCII letters. */
  function UpperChar(c: char): char {
    if IsLowerAscii(c) then (c as int - 32) as char else c
  }

  /** `s.toUpperCase()`: the same length, no lower-case ASCII letter left, and
      every other character kept. */
  function Upper(s: string): (r: string)
    ensures |r| == |s|
    ensures forall k :: 0 <= k < |r| ==> !IsLowerAscii(r[k])
    ensures forall k :: 0 <= k < |r| && !IsLowerAscii(s[k]) ==> r[k] == s[k]
    ensures forall k :: 0 <= k < |r| && IsLowerAscii(s[k]) ==> r[k] as int == s[k] as int - 32
  {
    seq(|s|, k requires 0 <= k < |s| => UpperChar(s[k]))
  }

  /** Upper-casing never turns a character into white space or back. */
  lemma UpperCharKeepsSpace(c: char)
    ensures IsJsSpace(UpperChar(c)) <==> IsJsSpace(c)
  {
    if IsLowerAscii(c) {
      assert 'A' <= UpperChar(c) <= 'Z';
    }
  }

  /** Upper-casing a trimmed string leaves it trimmed. */
  lemma UpperKeepsTrimmed(s: string)
    requires s == [] || (!IsJsSpace(s[0]) && !IsJsSpace(s[|s| - 1]))
    ensures var u := Upper(s); u == [] || (!IsJsSpace(u[0]) && !IsJsSpace(u[|u| - 1]))
  {
    if s != [] {
      UpperCharKeepsSpace(s[0]);
      UpperCharKeepsSpace(s[|s| - 1]);
    }
  }

  lemma UpperIdempotent(s: string)
    ensures Upper(Upper(s)) == Upper(s)
  {
  }

  /** A string with no lower-case ASCII letter is already upper case. */
  lemma UpperOfUpper(s: string)
    requires forall k :: 0 <= k < |s| ==> !IsLowerAscii(s[k])
    ensures Upper(s) == s
  {
  }

  const Width := 14

  function Spaces(n: nat): (r: string)
    ensures |r| == n && AllSpace(r)
    ensures forall k :: 0 <= k < n ==> r[k] == ' '
  {
    seq(n, _ => ' ')
  }

  /** `s.padEnd(14, ' ').slice(0, 14)`: exactly fourteen characters, the
      first `min(|s|, 14)` of them those of `s` and the rest spaces. */
  function Fit(s: string): (r: string)
    ensures |r| == Width
    ensures forall k :: 0 <= k < Width ==> r[k] == (if k < |s| then s[k] else ' ')
  {
    if |s| >= Width then s[..Width] else s + Spaces(Width - |s|)
  }

  function DigitChar(d: nat): char
    requires d < 10
  {
    ('0' as int + d) as char
  }

  predicate IsDigit(c: char) {
    '0' <= c <= '9'
  }

  function DigitValue(c: char): nat
    requires IsDigit(c)
  {
    c as int - '0' as int
  }

  /** The decimal digits of `n`, most significant first. */
  function Digits(n: nat): (r: string)
    ensures |r| > 0
    ensures forall k :: 0 <= k < |r| ==> IsDigit(r[k])
    ensures r[0] == '0' ==> n == 0
    decreases n
  {
    if n < 10 then [DigitChar(n)] else Digits(n / 10) + [DigitChar(n % 10)]
  }

  /** `${n}` for an integer `n`: an optional minus sign, then the digits. */
  function IntToString(n: int): (r: string)
    ensures |r| > 0 && (r[0] == '-' <==> n < 0)
    ensures forall k :: (if n < 0 then 1 else 0) <= k < |r| ==> IsDigit(r[k])
  {
    if n < 0 then "-" + Digits(-n) else Digits(n)
  }

  /** The value of a string of decimal digits. */
  function DecimalValue(s: string): nat
    requires forall k :: 0 <= k < |s| ==> IsDigit(s[k])
  {
    if s == [] then 0 else DecimalValue(s[..|s| - 1]) * 10 + DigitValue(s[|s| - 1])
  }

  /** Reads back what `IntToString` wrote. */
  function ParseInt(s: string): Option<int> {
    if |s| > 0 && s[0] == '-' then
      if |s| > 1 && forall k :: 1 <= k < |s| ==> IsDigit(s[k]) then Some(0 - DecimalValue(s[1..])) else None
    else if |s| > 0 && forall k :: 0 <= k < |s| ==> IsDigit(s[k]) then Some(DecimalValue(s))
    else None
  }

  lemma {:induction false} DigitsRoundTrip(n: nat)
    ensures DecimalValue(Digits(n)) == n
    decreases n
  {
    var r := Digits(n);
    if n >= 10 {
      DigitsRoundTrip(n / 10);
      assert r[..|r| - 1] == Digits(n / 10);
    }
  }

  /** The decimal text of an integer determines the integer. */
  lemma IntToStringRoundTrip(n: int)
    ensures ParseInt(IntToString(n)) == Some(n)
  {
    var s := IntToString(n);
    if n < 0 {
      DigitsRoundTrip(-n);
      assert s[1..] == Digits(-n);
    } else {
      DigitsRoundTrip(n);
    }
  }

  lemma IntToStringInjective(a: int, b: int)
    requires IntToString(a) == IntToString(b)
    ensures a == b
  {
    IntToStringRoundTrip(a);
    IntToStringRoundTrip(b);
  }
}

=== FILE: ticker.dfy ===
/** The ticker's display state machine (app/overhead/OverheadClient.js,
    lines 11-93 and 119-131): what a poll's answer, a failed poll, a cell's
    deadline, a scramble tick and the effect's cleanup do to the component's
    state, and what the component then shows. Timers are not run: each one
    firing is an event. */
module Ticker {

  import opened Options
  import opened Text
  import opened TickerFormat

  /** A cell of `scrambleMap`: nothing ('' or an unset slot) or a character. */
  datatype Cell = Blank | Glyph(c: char)

  /** The two timers a reveal starts for one cell (lines 44-65): the 50 ms
      scramble interval, and, while `deadlineArmed`, the 1000 ms deadline that
      writes `target` into the cell and clears the interval. Both capture the
      revealed flight and its fingerprint. */
  datatype CellTimer = CellTimer(row: nat, col: nat, target: char, flight: Summary, fingerprint: string, deadlineArmed: bool)

  /** The component's state (lines 11-15), with the timers still pending. */
  datatype State = State(
    flight: Option<Summary>,
    fingerprint: Option<string>,        // `previousFingerprint`
    wasNoFlight: bool,
    grid: seq<seq<Cell>>,               // `scrambleMap`
    timers: seq<CellTimer>)

  const GridRows := 4

  /** `Array(4).fill([])` */
  const EmptyGrid: seq<seq<Cell>> := [[], [], [], []]

  /** Line 39: four rows of fourteen '' cells. */
  function BlankGrid(): (g: seq<seq<Cell>>)
    ensures |g| == GridRows && forall r :: 0 <= r < GridRows ==> |g[r]| == Width
  {
    seq(GridRows, _ => seq(Width, _ => Blank))
  }

  const Initial := State(None, None, true, EmptyGrid, [])

  /** The component starts well formed and consistent, showing "NO FLIGHT
      OVERHEAD". */
  lemma InitialIsConsistent()
    ensures WellFormed(Initial) && Consistent(Initial)
    ensures Shown(Initial) == StaticDisplay(None)
  {
    EmptyGridShowsStatic(Initial);
  }

  /** Line 38: the characters a scrambling cell shows (no 'I'). */
  const ScrambleChars := "ABCDEFGHJKLMNOPQRSTUVWXYZ0123456789"

  predicate WellFormed(s: State) {
    |s.grid| == GridRows
    && forall k :: 0 <= k < |s.timers| ==>
         s.timers[k].row < GridRows && s.timers[k].col < Width
         && s.timers[k].fingerprint == Fingerprint(s.timers[k].flight)
  }

  /** The bookkeeping agrees with the flight on show: `wasNoFlight` says
      whether there is none, and the fingerprint is the flight's. */
  predicate Consistent(s: State) {
    (s.wasNoFlight <==> s.flight.None?) && s.fingerprint == FingerprintOf(s.flight)
  }

  /** `updated[row][col] = v` on a copy of the grid. Writing past the end of
      a row lengthens it, leaving unset slots. */
  function SetCell(grid: seq<seq<Cell>>, r: nat, c: nat, v: Cell): (g: seq<seq<Cell>>)
    requires r < |grid|
    ensures |g| == |grid|
    ensures |g[r]| == if c < |grid[r]| then |grid[r]| else c + 1
    ensures g[r][c] == v
    ensures forall i :: 0 <= i < |g| && i != r ==> g[i] == grid[i]
    ensures forall j :: 0 <= j < |g[r]| && j != c ==> g[r][j] == if j < |grid[r]| then grid[r][j] else Blank
  {
    var row := grid[r];
    var row' := if c < |row| then row[c := v] else row + seq(c - |row|, _ => Blank) + [v];
    grid[r := row']
  }

  /** The values of `wasNoFlight` and `previousFingerprint` a call of
      `fetchFlight` reads. */
  datatype View = View(wasNoFlight: bool, previousFingerprint: Option<string>)

  function CurrentView(s: State): View {
    View(s.wasNoFlight, s.fingerprint)
  }

  /** Line 30: the reveal plays for a flight when nothing was shown and its
      fingerprint differs from the previous one. */
  predicate Reveals(v: View, newFlight: Option<Summary>) {
    newFlight.Some? && v.wasNoFlight && FingerprintOf(newFlight) != v.previousFingerprint
  }

  /** Lines 42-67: the cell timers of a reveal of `f`. Every cell of the
      grid gets exactly one, armed, aiming at that cell's character of the
      revealed rows, and capturing the flight and its fingerprint. */
  function RevealTimers(f: Summary): (ts: seq<CellTimer>)
    ensures |ts| == GridRows * Width
    ensures forall r, c :: 0 <= r < GridRows && 0 <= c < Width ==> Pending(ts, r, c)
    ensures DistinctCells(ts)
    ensures forall k :: 0 <= k < |ts| ==>
              ts[k].row < GridRows && ts[k].col < Width
              && ts[k].target == RevealRows(f)[ts[k].row][ts[k].col]
              && ts[k].flight == f && ts[k].fingerprint == Fingerprint(f) && ts[k].deadlineArmed
  {
    var ts := seq(GridRows * Width, k requires 0 <= k < GridRows * Width =>
      CellTimer(k / Width, k % Width, RevealRows(f)[k / Width][k % Width], f, Fingerprint(f), true));
    RowMajorCoversGrid(ts);
    RowMajorIsDistinct(ts);
    ts
  }

  /** Lines 24-74 once the answer is parsed, with `v` the values the closure
      reads: either start a reveal, leaving flight, fingerprint and
      `wasNoFlight` for the last deadline to set, or settle at once. The grid
      is not touched when settling. */
  function ApplyAnswer(s: State, v: View, newFlight: Option<Summary>): (t: State)
    requires WellFormed(s)
    ensures WellFormed(t)
    ensures Reveals(v, newFlight) ==>
              t.flight == s.flight && t.fingerprint == s.fingerprint && t.wasNoFlight == s.wasNoFlight
              && t.grid == BlankGrid() && t.timers == s.timers + RevealTimers(newFlight.value)
    ensures !Reveals(v, newFlight) ==>
              t.flight == newFlight && t.fingerprint == FingerprintOf(newFlight) && t.wasNoFlight == newFlight.None?
              && t.grid == s.grid && t.timers == s.timers
  {
    if Reveals(v, newFlight) then
      s.(grid := BlankGrid(), timers := s.timers + RevealTimers(newFlight.value))
    else
      s.(flight := newFlight, fingerprint := FingerprintOf(newFlight), wasNoFlight := newFlight.None?)
  }

  /** A poll's answer, handled as intended: the closure reads the
      current state, and settling also clears the grid so that the rendered
      rows follow the flight. */
  function Receive(s: State, newFlight: Option<Summary>): (t: State)
    requires WellFormed(s)
    ensures WellFormed(t)
    ensures Reveals(CurrentView(s), newFlight) ==>
              t.flight == s.flight && t.fingerprint == s.fingerprint && t.wasNoFlight == s.wasNoFlight
              && t.grid == BlankGrid() && t.timers == s.timers + RevealTimers(newFlight.value)
    ensures !Reveals(CurrentView(s), newFlight) ==>
              t.flight == newFlight && t.fingerprint == FingerprintOf(newFlight) && t.wasNoFlight == newFlight.None?
              && t.grid == EmptyGrid && t.timers == s.timers
  {
    var t := ApplyAnswer(s, CurrentView(s), newFlight);
    if Reveals(CurrentView(s), newFlight) then t else t.(grid := EmptyGrid)
  }

  /** Lines 75-80: a failed poll shows no flight and forgets the grid; the
      pending timers are left running. */
  function FetchFailed(s: State): (t: State)
    requires WellFormed(s)
    ensures WellFormed(t) && Consistent(t)
    ensures t.flight == None && t.fingerprint == None && t.wasNoFlight && t.grid == EmptyGrid
    ensures t.timers == s.timers
  {
    s.(flight := None, wasNoFlight := true, fingerprint := None, grid := EmptyGrid)
  }

  /** `xs` without its element at `i`. */
  function RemoveAt<T>(xs: seq<T>, i: nat): (r: seq<T>)
    requires i < |xs|
    ensures |r| == |xs| - 1
    ensures forall k :: 0 <= k < i ==> r[k] == xs[k]
    ensures forall k :: i <= k < |r| ==> r[k] == xs[k + 1]
  {
    xs[..i] + xs[i + 1..]
  }

  /** Lines 52-65: a cell's deadline clears its interval and writes its
      target. Only the deadline of the last cell, row 3 column 13, commits
      the flight, its fingerprint and `wasNoFlight := false`. */
  function FireDeadline(s: State, i: nat): (t: State)
    requires WellFormed(s) && i < |s.timers| && s.timers[i].deadlineArmed
    ensures WellFormed(t)
    ensures t.grid == SetCell(s.grid, s.timers[i].row, s.timers[i].col, Glyph(s.timers[i].target))
    ensures t.timers == RemoveAt(s.timers, i)
    ensures s.timers[i].row == 3 && s.timers[i].col == 13 ==>
              t.flight == Some(s.timers[i].flight) && t.fingerprint == Some(Fingerprint(s.timers[i].flight)) && !t.wasNoFlight
    ensures !(s.timers[i].row == 3 && s.timers[i].col == 13) ==>
              t.flight == s.flight && t.fingerprint == s.fingerprint && t.wasNoFlight == s.wasNoFlight
  {
    var timer := s.timers[i];
    var t := s.(grid := SetCell(s.grid, timer.row, timer.col, Glyph(timer.target)), timers := RemoveAt(s.timers, i));
    if timer.row == 3 && timer.col == 13 then
      t.(flight := Some(timer.flight), fingerprint := Some(timer.fingerprint), wasNoFlight := false)
    else
      t
  }

  /** Lines 44-50: a tick of a cell's scramble interval writes one of the
      scramble characters into the cell. */
  function Scramble(s: State, i: nat, c: char): (t: State)
    requires WellFormed(s) && i < |s.timers|
    ensures WellFormed(t)
    ensures t.grid == SetCell(s.grid, s.timers[i].row, s.timers[i].col, Glyph(c))
    ensures t.timers == s.timers && t.flight == s.flight && t.fingerprint == s.fingerprint && t.wasNoFlight == s.wasNoFlight
  {
    s.(grid := SetCell(s.grid, s.timers[i].row, s.timers[i].col, Glyph(c)))
  }

  /** The effect's cleanup as intended: every timer of the session
      is cancelled. */
  function Cleanup(s: State): (t: State)
    requires WellFormed(s)
    ensures WellFormed(t) && t.timers == []
    ensures t.flight == s.flight && t.fingerprint == s.fingerprint && t.wasNoFlight == s.wasNoFlight && t.grid == s.grid
  {
    s.(timers := [])
  }

  /** What can happen to the component. A poll's answer and the effect's
      cleanup come in two forms: as the code handles them (`StaleAnswer`,
      reading the view its closure captured, and `CleanupAsWrittenRuns`) and
      as intended (`Answer` and `CleanupRuns`). */
  datatype Event =
    | Answer(newFlight: Option<Summary>)                  // a poll's parsed answer, read against the current state
    | StaleAnswer(view: View, newFlight: Option<Summary>)  // the same, read against a captured view
    | FetchError                                          // `fetch` or `res.json()` threw
    | DeadlineFires(timer: nat)
    | ScrambleTick(timer: nat, c: char)
    | CleanupRuns                                         // the coordinates changed: every timer cancelled
    | CleanupAsWrittenRuns                                // the same, cancelling deadlines only

  /** Only a pending timer can fire, a deadline only while armed. */
  predicate Enabled(s: State, e: Event) {
    match e
    case DeadlineFires(i) => i < |s.timers| && s.timers[i].deadlineArmed
    case ScrambleTick(i, c) => i < |s.timers| && c in ScrambleChars
    case _ => true
  }

  function Next(s: State, e: Event): (t: State)
    requires WellFormed(s) && Enabled(s, e)
    ensures WellFormed(t)
  {
    match e
    case Answer(newFlight) => Receive(s, newFlight)
    case StaleAnswer(v, newFlight) => ApplyAnswer(s, v, newFlight)
    case FetchError => FetchFailed(s)
    case DeadlineFires(i) => FireDeadline(s, i)
    case ScrambleTick(i, c) => Scramble(s, i, c)
    case CleanupRuns => Cleanup(s)
    case CleanupAsWrittenRuns => CleanupAsWritten(s)
  }

  /** The state after a sequence of events, if each is enabled in turn. */
  function Run(s: State, events: seq<Event>): (r: Option<State>)
    requires WellFormed(s)
    ensures r.Some? ==> WellFormed(r.value)
    decreases |events|
  {
    if events == [] then Some(s)
    else if Enabled(s, events[0]) then Run(Next(s, events[0]), events[1..])
    else None
  }

  /** Every event keeps the bookkeeping in step with the flight on show. */
  lemma NextPreservesConsistency(s: State, e: Event)
    requires WellFormed(s) && Consistent(s) && Enabled(s, e)
    ensures Consistent(Next(s, e))
  {
  }

  lemma {:induction false} RunPreservesConsistency(s: State, events: seq<Event>)
    requires WellFormed(s) && Consistent(s)
    requires Run(s, events).Some?
    ensures Consistent(Run(s, events).value)
    decreases |events|
  {
    if events != [] {
      NextPreservesConsistency(s, events[0]);
      RunPreservesConsistency(Next(s, events[0]), events[1..]);
    }
  }

  /** Once the bookkeeping is consistent the fingerprint test is redundant:
      a reveal plays exactly when a flight arrives while none is shown. */
  lemma RevealOnlyFromEmpty(s: State, newFlight: Option<Summary>)
    requires Consistent(s)
    ensures Reveals(CurrentView(s), newFlight) <==> newFlight.Some? && s.flight.None?
  {
  }

  /** In the intended handler, a flight already on show, arriving again,
      never replays the reveal. */
  lemma SameFlightDoesNotReveal(s: State, f: Summary)
    requires WellFormed(s) && Consistent(s) && s.flight == Some(f)
    ensures Receive(s, Some(f)).timers == s.timers
    ensures Receive(s, Some(f)).flight == Some(f)
  {
  }

  // ---- What the component shows (lines 119-161) ----

  function CellText(c: Cell): string {
    match c
    case Blank => ""
    case Glyph(ch) => [ch]
  }

  /** Line 126, inactive branch: `char.trim() || ''`. */
  function StaticCell(ch: char): string {
    if IsJsSpace(ch) then "" else [ch]
  }

  lemma StaticCellIsTrim(ch: char)
    ensures StaticCell(ch) == Trim([ch])
  {
    if IsJsSpace(ch) {
      TrimIsInfix([ch]);
      assert Trim([ch]) == [] || Trim([ch]) == [ch];
    } else {
      TrimOfTrimmed([ch]);
    }
  }

  /** The four rows on screen. A row whose grid entry holds exactly fourteen
      cells is active and shows them; any other row shows the static text of
      the flight held in state. */
  function Shown(s: State): (d: seq<seq<string>>)
    requires |s.grid| == GridRows
    ensures |d| == GridRows && forall r :: 0 <= r < GridRows ==> |d[r]| == Width
  {
    var texts := Texts(s.flight);
    seq(GridRows, r requires 0 <= r < GridRows =>
      var chars := Row(texts[r]);
      seq(Width, i requires 0 <= i < Width =>
        if |s.grid[r]| == Width then CellText(s.grid[r][i]) else StaticCell(chars[i])))
  }

  /** What a ticker with no animation in progress shows for `flight`. */
  function StaticDisplay(flight: Option<Summary>): (d: seq<seq<string>>)
    ensures |d| == GridRows && forall r :: 0 <= r < GridRows ==> |d[r]| == Width
  {
    var texts := Texts(flight);
    seq(GridRows, r requires 0 <= r < GridRows =>
      var chars := Row(texts[r]);
      seq(Width, i requires 0 <= i < Width => StaticCell(chars[i])))
  }

  /** An empty grid leaves every row to the static text. */
  lemma EmptyGridShowsStatic(s: State)
    requires |s.grid| == GridRows && s.grid == EmptyGrid
    ensures Shown(s) == StaticDisplay(s.flight)
  {
    var d, e := Shown(s), StaticDisplay(s.flight);
    forall r | 0 <= r < GridRows
      ensures d[r] == e[r]
    {
      assert |s.grid[r]| == 0;
    }
  }

  /** When an answer does not start a reveal, the ticker shows the new
      flight's static rows, or the "NO FLIGHT OVERHEAD" rows. */
  lemma SettledShowsAnswer(s: State, newFlight: Option<Summary>)
    requires WellFormed(s) && !Reveals(CurrentView(s), newFlight)
    ensures Shown(Receive(s, newFlight)) == StaticDisplay(newFlight)
  {
    EmptyGridShowsStatic(Receive(s, newFlight));
  }

  /** After a failed poll the ticker shows "NO FLIGHT OVERHEAD". */
  lemma FailureShowsNoFlight(s: State)
    requires WellFormed(s)
    ensures Shown(FetchFailed(s)) == StaticDisplay(None)
  {
    EmptyGridShowsStatic(FetchFailed(s));
  }

  // ---- A reveal runs to completion ----

  /** Four rows of fourteen characters. */
  predicate GridShaped(rows: seq<string>) {
    |rows| == GridRows && forall r :: 0 <= r < GridRows ==> |rows[r]| == Width
  }

  /** The grid showing `rows`, every cell settled. */
  function GridOf(rows: seq<string>): (g: seq<seq<Cell>>)
    requires GridShaped(rows)
    ensures |g| == GridRows
    ensures forall r, c :: 0 <= r < GridRows && 0 <= c < Width ==> |g[r]| == Width && g[r][c] == Glyph(rows[r][c])
  {
    seq(GridRows, r requires 0 <= r < GridRows => seq(Width, c requires 0 <= c < Width => Glyph(rows[r][c])))
  }

  /** The grid once every cell of `f`'s reveal has settled. */
  function TargetGrid(f: Summary): seq<seq<Cell>> {
    GridOf(RevealRows(f))
  }

  /** Some timer still owns cell (r, c). */
  predicate Pending(ts: seq<CellTimer>, r: int, c: int) {
    exists k :: 0 <= k < |ts| && ts[k].row == r && ts[k].col == c
  }

  predicate DistinctCells(ts: seq<CellTimer>) {
    forall k, l :: 0 <= k < l < |ts| ==> ts[k].row != ts[l].row || ts[k].col != ts[l].col
  }

  /** A reveal of `f` aiming at `rows` is under way: the grid is active,
      each pending timer is an armed timer of `f` aiming at its cell's
      character, each cell no timer owns already shows that character, and
      once the last cell's timer is gone the flight has been committed. */
  predicate Settling(s: State, f: Summary, rows: seq<string>) {
    GridShaped(rows)
    && WellFormed(s)
    && (forall r :: 0 <= r < GridRows ==> |s.grid[r]| == Width)
    && (forall k :: 0 <= k < |s.timers| ==>
          s.timers[k].flight == f && s.timers[k].deadlineArmed
          && s.timers[k].target == rows[s.timers[k].row][s.timers[k].col])
    && DistinctCells(s.timers)
    && (forall r, c :: 0 <= r < GridRows && 0 <= c < Width && !Pending(s.timers, r, c) ==>
          s.grid[r][c] == Glyph(rows[r][c]))
    && (!Pending(s.timers, 3, 13) ==> s.flight == Some(f) && s.fingerprint == Some(Fingerprint(f)) && !s.wasNoFlight)
  }

  predicate RevealInProgress(s: State, f: Summary) {
    Settling(s, f, RevealRows(f))
  }

  /** Timers laid out row by row, one per cell. */
  predicate RowMajor(ts: seq<CellTimer>) {
    |ts| == GridRows * Width
    && forall k :: 0 <= k < |ts| ==> ts[k].row == k / Width && ts[k].col == k % Width
  }

  lemma RowMajorCoversGrid(ts: seq<CellTimer>)
    requires RowMajor(ts)
    ensures forall r, c :: 0 <= r < GridRows && 0 <= c < Width ==> Pending(ts, r, c)
  {
    forall r, c | 0 <= r < GridRows && 0 <= c < Width
      ensures Pending(ts, r, c)
    {
      var k := r * Width + c;
      assert k / Width == r && k % Width == c;
      assert ts[k].row == r && ts[k].col == c;
    }
  }

  lemma CellOfIndex(k: nat)
    requires k < GridRows * Width
    ensures k == (k / Width) * Width + k % Width
  {
  }

  lemma RowMajorIsDistinct(ts: seq<CellTimer>)
    requires RowMajor(ts)
    ensures DistinctCells(ts)
  {
    forall k, l | 0 <= k < l < |ts|
      ensures ts[k].row != ts[l].row || ts[k].col != ts[l].col
    {
      CellOfIndex(k);
      CellOfIndex(l);
    }
  }

  /** Fresh timers, one per cell, each aiming at its cell's
      character, over an active grid, start a settling reveal. */
  lemma StartSettling(s: State, f: Summary, rows: seq<string>)
    requires WellFormed(s) && GridShaped(rows) && DistinctCells(s.timers)
    requires forall r, c :: 0 <= r < GridRows && 0 <= c < Width ==> Pending(s.timers, r, c)
    requires forall r :: 0 <= r < GridRows ==> |s.grid[r]| == Width
    requires forall k :: 0 <= k < |s.timers| ==>
               s.timers[k].flight == f && s.timers[k].deadlineArmed
               && s.timers[k].target == rows[s.timers[k].row][s.timers[k].col]
    ensures Settling(s, f, rows)
  {
    assert Pending(s.timers, 3, 13);
  }

  /** A reveal started from a state with no timers owns every cell once. */
  lemma RevealStarts(s: State, f: Summary)
    requires WellFormed(s) && s.timers == [] && Reveals(CurrentView(s), Some(f))
    ensures RevealInProgress(Receive(s, Some(f)), f)
  {
    var t := Receive(s, Some(f));
    assert t.timers == RevealTimers(f) && t.grid == BlankGrid();
    StartSettling(t, f, RevealRows(f));
  }

  /** Removing one timer frees its cell and no other. */
  lemma {:induction false} PendingAfterRemoval(ts: seq<CellTimer>, i: nat, r: int, c: int)
    requires i < |ts| && DistinctCells(ts)
    ensures Pending(RemoveAt(ts, i), r, c) <==> Pending(ts, r, c) && (r != ts[i].row || c != ts[i].col)
  {
    var rs := RemoveAt(ts, i);
    if Pending(rs, r, c) {
      var k :| 0 <= k < |rs| && rs[k].row == r && rs[k].col == c;
      var j := if k < i then k else k + 1;
      assert ts[j] == rs[k];
      assert j != i;
    }
    if Pending(ts, r, c) && (r != ts[i].row || c != ts[i].col) {
      var j :| 0 <= j < |ts| && ts[j].row == r && ts[j].col == c;
      var k := if j < i then j else j - 1;
      assert rs[k] == ts[j];
    }
  }

  lemma RemovalKeepsDistinct(ts: seq<CellTimer>, i: nat)
    requires i < |ts| && DistinctCells(ts)
    ensures DistinctCells(RemoveAt(ts, i))
  {
    var rs := RemoveAt(ts, i);
    forall k, l | 0 <= k < l < |rs|
      ensures rs[k].row != rs[l].row || rs[k].col != rs[l].col
    {
      var k', l' := if k < i then k else k + 1, if l < i then l else l + 1;
      assert rs[k] == ts[k'] && rs[l] == ts[l'];
    }
  }

  lemma DeadlineKeepsSettling(s: State, f: Summary, rows: seq<string>, i: nat)
    requires Settling(s, f, rows) && i < |s.timers|
    ensures Settling(FireDeadline(s, i), f, rows)
  {
    DeadlineKeepsTimers(s, f, rows, i);
    DeadlineKeepsSettledCells(s, f, rows, i);
  }

  /** The timers left after a deadline are still armed timers of `f`, one
      per cell, over an active grid. */
  lemma DeadlineKeepsTimers(s: State, f: Summary, rows: seq<string>, i: nat)
    requires Settling(s, f, rows) && i < |s.timers|
    ensures var t := FireDeadline(s, i);
            (forall r :: 0 <= r < GridRows ==> |t.grid[r]| == Width)
            && (forall k :: 0 <= k < |t.timers| ==>
                  t.timers[k].flight == f && t.timers[k].deadlineArmed
                  && t.timers[k].target == rows[t.timers[k].row][t.timers[k].col])
            && DistinctCells(t.timers)
  {
    var t := FireDeadline(s, i);
    assert forall k :: 0 <= k < |t.timers| ==> t.timers[k] in s.timers;
    RemovalKeepsDistinct(s.timers, i);
  }

  /** After a deadline every cell no timer owns shows its character, and
      the flight is committed once the last cell is free. */
  lemma DeadlineKeepsSettledCells(s: State, f: Summary, rows: seq<string>, i: nat)
    requires Settling(s, f, rows) && i < |s.timers|
    ensures var t := FireDeadline(s, i);
            (forall r, c :: 0 <= r < GridRows && 0 <= c < Width && !Pending(t.timers, r, c) ==>
               t.grid[r][c] == Glyph(rows[r][c]))
            && (!Pending(t.timers, 3, 13) ==> t.flight == Some(f) && t.fingerprint == Some(Fingerprint(f)) && !t.wasNoFlight)
  {
    var t := FireDeadline(s, i);
    forall r, c | 0 <= r < GridRows && 0 <= c < Width && !Pending(t.timers, r, c)
      ensures t.grid[r][c] == Glyph(rows[r][c])
    {
      PendingAfterRemoval(s.timers, i, r, c);
    }
    PendingAfterRemoval(s.timers, i, 3, 13);
  }

  lemma ScrambleKeepsSettling(s: State, f: Summary, rows: seq<string>, i: nat, ch: char)
    requires Settling(s, f, rows) && i < |s.timers|
    ensures Settling(Scramble(s, i, ch), f, rows)
  {
    var t := Scramble(s, i, ch);
    forall r, c | 0 <= r < GridRows && 0 <= c < Width && !Pending(t.timers, r, c)
      ensures t.grid[r][c] == Glyph(rows[r][c])
    {
      assert r != s.timers[i].row || c != s.timers[i].col;
    }
  }

  predicate TimerEvent(e: Event) {
    e.DeadlineFires? || e.ScrambleTick?
  }

  lemma TimerEventKeepsSettling(s: State, f: Summary, rows: seq<string>, e: Event)
    requires Settling(s, f, rows) && TimerEvent(e) && Enabled(s, e)
    ensures Settling(Next(s, e), f, rows)
  {
    match e
    case DeadlineFires(i) => DeadlineKeepsSettling(s, f, rows, i);
    case ScrambleTick(i, ch) => ScrambleKeepsSettling(s, f, rows, i, ch);
  }

  /** With no timer left, nothing is pending: every cell is settled. */
  lemma Settled(s: State, f: Summary, rows: seq<string>)
    requires Settling(s, f, rows) && s.timers == []
    ensures s.grid == GridOf(rows)
    ensures s.flight == Some(f) && s.fingerprint == Some(Fingerprint(f)) && !s.wasNoFlight
  {
    var g := GridOf(rows);
    forall r | 0 <= r < GridRows
      ensures s.grid[r] == g[r]
    {
      forall c | 0 <= c < Width
        ensures s.grid[r][c] == g[r][c]
      {
        assert !Pending(s.timers, r, c);
      }
    }
    assert !Pending(s.timers, 3, 13);
  }

  /** Whatever order the timers fire in, once none is left the grid holds
      the revealed rows and the flight, its fingerprint and `wasNoFlight`
      have been committed. */
  lemma {:induction false} SettlingCompletes(s: State, f: Summary, rows: seq<string>, events: seq<Event>)
    requires Settling(s, f, rows)
    requires forall k :: 0 <= k < |events| ==> TimerEvent(events[k])
    requires Run(s, events).Some? && Run(s, events).value.timers == []
    ensures Run(s, events).value.grid == GridOf(rows)
    ensures Run(s, events).value.flight == Some(f)
    ensures Run(s, events).value.fingerprint == Some(Fingerprint(f))
    ensures !Run(s, events).value.wasNoFlight
    decreases |events|
  {
    if events == [] {
      Settled(s, f, rows);
    } else {
      TimerEventKeepsSettling(s, f, rows, events[0]);
      assert forall k :: 0 <= k < |events[1..]| ==> TimerEvent(events[1..][k]);
      SettlingCompletes(Next(s, events[0]), f, rows, events[1..]);
    }
  }

  /** A grid holding fourteen cells in every row is shown as it is. */
  lemma ShownOfFullGrid(t: State, rows: seq<string>)
    requires |t.grid| == GridRows && GridShaped(rows) && t.grid == GridOf(rows)
    ensures forall r, c :: 0 <= r < GridRows && 0 <= c < Width ==> Shown(t)[r][c] == [rows[r][c]]
  {
  }

  lemma StaticDisplayCell(flight: Option<Summary>, r: nat, c: nat)
    requires r < GridRows && c < Width
    ensures StaticDisplay(flight)[r][c] == StaticCell(Row(Texts(flight)[r])[c])
  {
  }

  /** A settled grid shows each revealed character in its cell, and that
      cell, trimmed, is what the static display of the flight shows there. */
  lemma SettledGridShowsFlight(t: State, f: Summary)
    requires |t.grid| == GridRows && t.grid == TargetGrid(f)
    ensures forall r, c :: 0 <= r < GridRows && 0 <= c < Width ==>
              Shown(t)[r][c] == [RevealRows(f)[r][c]] && Trim(Shown(t)[r][c]) == StaticDisplay(Some(f))[r][c]
  {
    var rows := RevealRows(f);
    ShownOfFullGrid(t, rows);
    RevealRowsAreRenderedRows(f);
    forall r, c | 0 <= r < GridRows && 0 <= c < Width
      ensures Trim([rows[r][c]]) == StaticDisplay(Some(f))[r][c]
    {
      StaticCellIsTrim(rows[r][c]);
      StaticDisplayCell(Some(f), r, c);
    }
  }

  /** The whole animation: an answer with a flight, arriving while none is
      shown and no timer is pending, followed by the reveal's timers firing
      until none is left, ends showing that flight's rows, and the
      bookkeeping names it. */
  lemma {:induction false} RevealShowsFlight(s: State, f: Summary, events: seq<Event>)
    requires WellFormed(s) && Consistent(s) && s.flight.None? && s.timers == []
    requires forall k :: 0 <= k < |events| ==> TimerEvent(events[k])
    requires Run(Receive(s, Some(f)), events).Some? && Run(Receive(s, Some(f)), events).value.timers == []
    ensures var t := Run(Receive(s, Some(f)), events).value;
            t.grid == TargetGrid(f) && t.flight == Some(f) && Consistent(t)
            && forall r, c :: 0 <= r < GridRows && 0 <= c < Width ==>
                 Shown(t)[r][c] == [RevealRows(f)[r][c]] && Trim(Shown(t)[r][c]) == StaticDisplay(Some(f))[r][c]
  {
    RevealOnlyFromEmpty(s, Some(f));
    RevealStarts(s, f);
    SettlingCompletes(Receive(s, Some(f)), f, RevealRows(f), events);
    var t := Run(Receive(s, Some(f)), events).value;
    SettledGridShowsFlight(t, f);
  }

  // ---- The code as written, where it departs from what is intended ----

  /** `fetchFlight` is created once per run of the effect (dependencies
      `[lat, lon]`), so every poll reads the `wasNoFlight` and
      `previousFingerprint` of the render the effect ran in: on a page whose
      coordinates never change, the initial ones. */
  const InitialView := View(true, None)

  /** As written, the flight already on show, answered again by the next
      poll, blanks the grid and replays the whole reveal: 56 more timers. */
  lemma StaleViewReanimates(s: State, f: Summary)
    requires WellFormed(s) && Consistent(s) && s.flight == Some(f)
    ensures var t := ApplyAnswer(s, InitialView, Some(f));
            t.timers == s.timers + RevealTimers(f) && t.grid == BlankGrid()
            && forall r, c :: 0 <= r < GridRows && 0 <= c < Width ==> Shown(t)[r][c] == ""
  {
    assert Reveals(InitialView, Some(f));
  }

  /** As written, settling leaves the grid alone. After a reveal completes
      every row holds fourteen cells, so when the flight then leaves, the
      ticker goes on showing the revealed rows: the second row reads "A..."
      instead of "NO". */
  lemma StaleGridKeepsShowing(s: State, f: Summary)
    requires WellFormed(s) && s.grid == TargetGrid(f)
    requires s.flight == Some(f) && s.fingerprint == Some(Fingerprint(f)) && !s.wasNoFlight
    ensures var t := ApplyAnswer(s, CurrentView(s), None);
            t.flight == None && Shown(t)[1][0] == "A" && StaticDisplay(None)[1][0] == "N"
            && Shown(t) != StaticDisplay(None)
  {
    var t := ApplyAnswer(s, CurrentView(s), None);
    assert t.grid == s.grid;
    RevealedAltitudeRowShowsA(t, f);
    NoFlightRowShowsN();
  }

  lemma RevealedAltitudeRowShowsA(t: State, f: Summary)
    requires |t.grid| == GridRows && t.grid == TargetGrid(f)
    ensures Shown(t)[1][0] == "A"
  {
    ShownOfFullGrid(t, RevealRows(f));
    AltitudeRowStartsWithA(f);
  }

  lemma NoFlightRowShowsN()
    ensures StaticDisplay(None)[1][0] == "N"
  {
    StaticDisplayCell(None, 1, 0);
    assert Row("NO")[0] == 'N';
  }

  lemma AltitudeRowStartsWithA(f: Summary)
    ensures RevealRows(f)[1][0] == 'A'
  {
    var text := AltitudeText(f);
    assert RevealRows(f)[1] == Row(text);
    assert text[0] == 'A';
  }

  /** Lines 89-92 as written: the poll interval and every deadline are
      cancelled, but the scramble intervals, whose ids were never kept, are
      not. */
  function CleanupAsWritten(s: State): (t: State)
    requires WellFormed(s)
    ensures WellFormed(t)
    ensures |t.timers| == |s.timers|
    ensures forall k :: 0 <= k < |t.timers| ==> t.timers[k] == s.timers[k].(deadlineArmed := false)
    ensures t.flight == s.flight && t.fingerprint == s.fingerprint && t.wasNoFlight == s.wasNoFlight && t.grid == s.grid
  {
    s.(timers := seq(|s.timers|, k requires 0 <= k < |s.timers| => s.timers[k].(deadlineArmed := false)))
  }

  /** One event other than the intended cleanup keeps a prefix of disarmed
      timers in place. */
  lemma NextKeepsDisarmed(s: State, n: nat, e: Event)
    requires WellFormed(s) && Enabled(s, e) && n <= |s.timers| && !e.CleanupRuns?
    requires forall k :: 0 <= k < n ==> !s.timers[k].deadlineArmed
    ensures n <= |Next(s, e).timers| && Next(s, e).timers[..n] == s.timers[..n]
  {
    match e
    case Answer(newFlight) =>
    case StaleAnswer(v, newFlight) =>
    case FetchError =>
    case DeadlineFires(i) =>
      assert n <= i;
    case ScrambleTick(i, c) =>
    case CleanupAsWrittenRuns =>
  }

  /** No event but the intended cleanup ever removes a timer whose deadline
      is gone; in the code as written nothing does. */
  lemma {:induction false} DisarmedTimersPersist(s: State, n: nat, events: seq<Event>)
    requires WellFormed(s) && n <= |s.timers|
    requires forall k :: 0 <= k < n ==> !s.timers[k].deadlineArmed
    requires forall k :: 0 <= k < |events| ==> !events[k].CleanupRuns?
    requires Run(s, events).Some?
    ensures n <= |Run(s, events).value.timers| && Run(s, events).value.timers[..n] == s.timers[..n]
    decreases |events|
  {
    if events != [] {
      var t := Next(s, events[0]);
      NextKeepsDisarmed(s, n, events[0]);
      assert forall k :: 0 <= k < n ==> t.timers[k] == t.timers[..n][k] == s.timers[k];
      assert forall k :: 0 <= k < |events[1..]| ==> !events[1..][k].CleanupRuns?;
      DisarmedTimersPersist(t, n, events[1..]);
    }
  }

  /** As written, a scramble interval outlives the cleanup: whatever
      answers, failures, deadlines and further cleanups of the code follow,
      it can still tick and write a random character into its cell. */
  lemma OrphanScramblersAfterCleanup(s: State, i: nat, c: char, events: seq<Event>)
    requires WellFormed(s) && i < |s.timers| && c in ScrambleChars
    requires forall k :: 0 <= k < |events| ==> !events[k].CleanupRuns?
    requires Run(CleanupAsWritten(s), events).Some?
    ensures var u := Run(CleanupAsWritten(s), events).value;
            Enabled(u, ScrambleTick(i, c)) && WellFormed(u)
            && i < |u.timers| && u.timers[i].row == s.timers[i].row && u.timers[i].col == s.timers[i].col
            && Scramble(u, i, c).grid[s.timers[i].row][s.timers[i].col] == Glyph(c)
  {
    var t := CleanupAsWritten(s);
    DisarmedTimersPersist(t, |t.timers|, events);
    var u := Run(t, events).value;
    assert u.timers[i] == u.timers[..|t.timers|][i];
    assert u.timers[i] == t.timers[i];
  }

  /** The intended cleanup leaves no timer able to fire. */
  lemma CleanupStopsEverything(s: State)
    requires WellFormed(s)
    ensures forall i: nat, c :: !Enabled(Cleanup(s), ScrambleTick(i, c)) && !Enabled(Cleanup(s), DeadlineFires(i))
  {
  }
}

=== FILE: ticker_format.dfy ===
/** The ticker's pure formatters (app/overhead/OverheadClient.js): how a
    flight arrives from the route, its fingerprint, the compass direction, the
    callsign rule and the four fixed-width rows. */
module TickerFormat {

  import opened Options
  import opened JsValues
  import opened Text
  import FlightSummary
  import Route

  /** A flight as the ticker holds it, after the route's answer has been
      through `JSON.stringify` and `res.json()`. */
  datatype Summary = Summary(callsign: string, altitude: real, groundspeed: int, heading: int)

  /** A non-finite heading travels as `null`; `Math.round(null)` is 0 and
      `getCompassDirection(null)` reads it as 0 too, so it arrives as 0. */
  function Received(f: FlightSummary.Flight): Summary {
    Summary(f.callsign, f.altitude, f.groundspeed, if f.heading.Whole? then f.heading.n else 0)
  }

  /** Line 24: the first flight of the answer, or `null`. A 400 answer has no
      `flights` field and reads as no flight. */
  function FlightOf(r: Route.Response): (f: Option<Summary>)
    ensures f.Some? <==> r.body.FlightsBody? && |r.body.flights| > 0
    ensures f.Some? ==> f.value == Received(r.body.flights[0])
  {
    if r.body.FlightsBody? && |r.body.flights| > 0 then Some(Received(r.body.flights[0])) else None
  }

  /** Line 26: `${callsign}-${Math.round(altitude)}-${Math.round(heading)}`. */
  function Fingerprint(f: Summary): string {
    f.callsign + "-" + IntToString(Round(f.altitude)) + "-" + IntToString(f.heading)
  }

  /** Lines 25-27: `null` when there is no flight. */
  function FingerprintOf(flight: Option<Summary>): (r: Option<string>)
    ensures r.Some? <==> flight.Some?
    ensures flight.Some? ==> r == Some(Fingerprint(flight.value))
  {
    match flight
    case Some(f) => Some(Fingerprint(f))
    case None => None
  }

  /** Cutting at the first '-' recovers both halves when the left half has
      none. */
  lemma {:induction false} SplitAtFirstDash(a1: string, r1: string, a2: string, r2: string)
    requires '-' !in a1 && '-' !in a2
    requires a1 + "-" + r1 == a2 + "-" + r2
    ensures a1 == a2 && r1 == r2
  {
    var s := a1 + "-" + r1;
    assert s[|a1|] == '-' && s[|a2|] == '-';
    assert forall k :: 0 <= k < |a1| ==> s[k] == a1[k] != '-';
    assert forall k :: 0 <= k < |a2| ==> s[k] == a2[k] != '-';
    assert a1 == s[..|a1|] == a2;
    assert r1 == s[|a1| + 1..] == r2;
  }

  /** The fingerprint loses nothing the ticker shows: for names without '-'
      (every name the route produces) and a non-negative altitude, two flights
      have the same fingerprint exactly when they show the same name, rounded
      altitude and heading. */
  lemma FingerprintIdentifiesDisplay(f: Summary, g: Summary)
    requires '-' !in f.callsign && '-' !in g.callsign
    requires Round(f.altitude) >= 0 && Round(g.altitude) >= 0
    ensures Fingerprint(f) == Fingerprint(g) <==>
              f.callsign == g.callsign && Round(f.altitude) == Round(g.altitude) && f.heading == g.heading
  {
    if Fingerprint(f) == Fingerprint(g) {
      var af, ag := IntToString(Round(f.altitude)), IntToString(Round(g.altitude));
      var hf, hg := IntToString(f.heading), IntToString(g.heading);
      assert Fingerprint(f) == f.callsign + "-" + (af + "-" + hf);
      assert Fingerprint(g) == g.callsign + "-" + (ag + "-" + hg);
      SplitAtFirstDash(f.callsign, af + "-" + hf, g.callsign, ag + "-" + hg);
      assert '-' !in af && '-' !in ag;
      SplitAtFirstDash(af, hf, ag, hg);
      IntToStringInjective(Round(f.altitude), Round(g.altitude));
      IntToStringInjective(f.heading, g.heading);
    }
  }

  const Directions: seq<string> := ["N", "NE", "E", "SE", "S", "SW", "W", "NW"]

  /** Line 111: `Math.round(heading / 45) % 8`. */
  function CompassIndex(heading: int): int {
    JsRem8(Round(heading as real / 45.0))
  }

  /** Lines 109-112. A negative index reads `directions[-1]`, which is
      `undefined` and prints as "undefined". */
  function Compass(heading: int): (r: string)
    ensures heading >= 0 ==> r in Directions
    ensures r == "undefined" <==> CompassIndex(heading) < 0
  {
    var i := CompassIndex(heading);
    if 0 <= i then Directions[i] else "undefined"
  }

  /** The direction is that of the compass point nearest the heading: the
      point `k` (a multiple of 45 degrees) within 22 degrees of it. */
  lemma CompassIsNearestPoint(heading: int, k: int)
    requires heading >= 0
    requires 45 * k - 22 <= heading <= 45 * k + 22
    ensures Compass(heading) == Directions[k % 8]
  {
    var x := heading as real / 45.0;
    assert k as real - 0.5 <= x < k as real + 0.5;
    assert Round(x) == k;
  }

  lemma WestExample()
    ensures Compass(270) == "W"
  {
    CompassIsNearestPoint(270, 6);
  }

  /** Headings from 338 to 359 round to 360 and wrap round to north. */
  lemma NorthWraps(heading: int)
    requires 338 <= heading < 360
    ensures Compass(heading) == "N"
  {
    CompassIsNearestPoint(heading, 8);
  }

  /** A heading below -22 rounds to a negative multiple of 45 short of -360
      and has no direction. */
  lemma NegativeHeadingHasNoDirection(heading: int)
    requires -337 <= heading <= -23
    ensures Compass(heading) == "undefined"
  {
    var x := heading as real / 45.0;
    assert -7.5 < x < -0.5;
  }

  /** Lines 114-117: the trimmed callsign in upper case when it has more than
      one character, "PRIVATE" otherwise. Either way at least two characters
      and no lower-case letter. */
  function FormatCallsign(f: Summary): (r: string)
    ensures |r| > 1
    ensures forall k :: 0 <= k < |r| ==> !IsLowerAscii(r[k])
    ensures |Trim(f.callsign)| > 1 ==> r == Upper(Trim(f.callsign))
    ensures |Trim(f.callsign)| <= 1 ==> r == FlightSummary.Private
  {
    var c := Trim(f.callsign);
    if |c| > 1 then Upper(c) else PrivateInCapitals(); FlightSummary.Private
  }

  /** "PRIVATE" is two or more capital letters. */
  lemma PrivateInCapitals()
    ensures |FlightSummary.Private| > 1
    ensures forall k :: 0 <= k < |FlightSummary.Private| ==> !IsLowerAscii(FlightSummary.Private[k])
  {
  }

  /** Every airline name the route can produce is shown as that name in
      capitals. */
  lemma FormatAirlineName(f: Summary, designator: string)
    requires FlightSummary.Airline(designator) == Some(f.callsign) || f.callsign == FlightSummary.Private
    ensures FormatCallsign(f) == Upper(f.callsign)
  {
    if f.callsign != FlightSummary.Private {
      FlightSummary.AirlineNamesAreClean(designator);
    }
    TrimOfTrimmed(f.callsign);
  }

  function AltitudeText(f: Summary): string {
    "ALT " + IntToString(Round(f.altitude)) + "FT"
  }

  function SpeedText(f: Summary): string {
    "SPD " + IntToString(f.groundspeed) + "MPH"
  }

  function HeadingText(f: Summary): string {
    "HDG " + Compass(f.heading) + " " + IntToString(f.heading) + "°"
  }

  /** The altitude, speed and heading rows read back: each opens with its
      label, and the number between the label and the unit parses to the
      rounded value it was written from. */
  lemma RowTextsReadBack(f: Summary)
    ensures var t := AltitudeText(f);
      |t| > 6 && t[..4] == "ALT " && t[|t| - 2..] == "FT" && ParseInt(t[4..|t| - 2]) == Some(Round(f.altitude))
    ensures var t := SpeedText(f);
      |t| > 7 && t[..4] == "SPD " && t[|t| - 3..] == "MPH" && ParseInt(t[4..|t| - 3]) == Some(f.groundspeed)
    ensures var t, p := HeadingText(f), |Compass(f.heading)| + 5;
      |t| > p && t[..p] == "HDG " + Compass(f.heading) + " " && t[|t| - 1] == '°'
      && ParseInt(t[p..|t| - 1]) == Some(f.heading)
  {
    var a := IntToString(Round(f.altitude));
    IntToStringRoundTrip(Round(f.altitude));
    assert AltitudeText(f)[4..|AltitudeText(f)| - 2] == a;
    var v := IntToString(f.groundspeed);
    IntToStringRoundTrip(f.groundspeed);
    assert SpeedText(f)[4..|SpeedText(f)| - 3] == v;
    var h := IntToString(f.heading);
    IntToStringRoundTrip(f.heading);
    var p := |Compass(f.heading)| + 5;
    assert HeadingText(f)[p..|HeadingText(f)| - 1] == h;
  }

  /** The four texts of a flight, as rendered (lines 149-152) and, before
      `toUpperCase`, as revealed (lines 32-35). */
  function FlightTexts(f: Summary): (t: seq<string>)
    ensures |t| == 4
  {
    [FormatCallsign(f), AltitudeText(f), SpeedText(f), HeadingText(f)]
  }

  /** The four texts the ticker renders (lines 147-161). */
  function Texts(flight: Option<Summary>): (t: seq<string>)
    ensures |t| == 4
  {
    match flight
    case Some(f) => FlightTexts(f)
    case None => ["", "NO", "FLIGHT", "OVERHEAD"]
  }

  /** Line 120: a rendered row is exactly fourteen characters, the upper-cased
      text cut or padded with spaces. */
  function Row(text: string): (r: string)
    ensures |r| == Width
    ensures forall k :: 0 <= k < Width ==> r[k] == (if k < |text| then UpperChar(text[k]) else ' ')
  {
    Fit(Upper(text))
  }

  /** Lines 31-36 for texts `t`: the first only cut or padded, the others
      also upper-cased. */
  function RevealRowsOf(t: seq<string>): (rows: seq<string>)
    requires |t| == 4
    ensures |rows| == 4 && forall r :: 0 <= r < 4 ==> |rows[r]| == Width
  {
    [Fit(t[0]), Row(t[1]), Row(t[2]), Row(t[3])]
  }

  /** The rows a reveal settles on. */
  function RevealRows(f: Summary): (rows: seq<string>)
    ensures |rows| == 4 && forall r :: 0 <= r < 4 ==> |rows[r]| == Width
  {
    RevealRowsOf(FlightTexts(f))
  }

  /** Leaving out `toUpperCase` on a first text already in capitals changes
      nothing. */
  lemma RevealRowsOfCapitals(t: seq<string>)
    requires |t| == 4 && forall k :: 0 <= k < |t[0]| ==> !IsLowerAscii(t[0][k])
    ensures forall r :: 0 <= r < 4 ==> RevealRowsOf(t)[r] == Row(t[r])
  {
    UpperOfUpper(t[0]);
  }

  /** The reveal settles on exactly the rows the ticker renders for the flight. */
  lemma RevealRowsAreRenderedRows(f: Summary)
    ensures forall r :: 0 <= r < 4 ==> RevealRows(f)[r] == Row(Texts(Some(f))[r])
  {
    var t := FlightTexts(f);
    assert t[0] == FormatCallsign(f);
    RevealRowsOfCapitals(t);
  }

  /** The heading row of a flight heading 270 degrees. */
  lemma HeadingRowExample(f: Summary)
    requires f.heading == 270
    ensures HeadingText(f) == "HDG W 270°"
  {
    WestExample();
    assert Digits(2) == "2";
    assert Digits(27) == "27";
    assert IntToString(270) == "270";
  }
}
